=== FILE: README.md ===
# Sphere Connect wallet demo on Cedra: a Dafny model

The application is a React wallet for the Cedra chain, built on the Sphere Connect SDK and a
GraphQL indexer. This project models the logic that holds no presentation. It has six parts.

- **The indexer service.** Three balance tables are merged into one list through an
  insertion-ordered `Map`. The new fungible-asset table is filled with `set`. The legacy
  fungible-asset table and the coin table are filled with `if (!has) set`. The two metadata
  tables are merged the same way. The balance and activity queries are sent with the
  lowercased address; the two metadata queries are sent with the list of asset types. A query
  that fails, or that answers without data, contributes an empty list.
- **The dashboard.** Each merged balance is enriched with its decimals, symbol, name, icon
  and formatted amount. `fetchAllBalances` then updates the token list. The list area has its
  own visibility rules: the fixed Cedra row, the loading message and the per-row skip test.
- **The activity tab.** Indexer activities become history rows, which are cut to ten.
  `fetchHistory` updates the state and falls back to the SDK's history when there is no
  indexer URL. Each row gets a Sent/Received label.
- **The send and receive forms.**
  - Token-name parsing takes the third `::` segment and drops one trailing `Coin` in any case.
  - The symbol and balance fallbacks.
  - The two-step input/confirm machine.
  - `handleSend` and its SDK calls, each of which may fail.
- **Network selection.** The header's if-chain and the switcher's endpoint table map a
  network to its RPC URL. The switcher also gives each network a colour. The header records a
  network only after the SDK call returns; the switcher records it before the call.
- **The app shell.** The short address, the avatar letter and user names derived from the
  email, and the choice between the landing page and the dashboard layout.

Every fetch and every SDK call is an input to the model. `Indexer.Service` gives, for each
query's variables, what the indexer answers (`Fetched`): a failure, no data, a list of rows,
or a value that is not a list. `Sdk.Outcome` is an SDK call that returns or throws. Each
component that changes state is a class whose methods change the component's state. The
send form, the header and the network switcher also keep a `calls` log of the SDK calls they
make. The dashboard state and the history state keep none: the dashboard makes no SDK call,
and the history state takes the outcome of `wallet.getTransactionHistory()` as a parameter.

`""` stands for a missing or falsy string throughout. `Option` is used where the source
tells `undefined` apart from `""` (the email in the mobile header, a metadata record, a
wallet).

Two facts about the dashboard come out of the proofs:

- `loadingTokens` starts `false` and is only ever assigned `false`, so the "Loading
  tokens..." message can never show (`Dashboard.DashboardState.View`).
- The skip test in the token list never holds for a token of the list itself, so every token
  is rendered (`Dashboard.NoRowSkipped`).

Both are modelled as written.

Modules and files:

- `wrappers.dfy`: `Option`.
- `text.dfy`: the JavaScript string operations used.
- `ordered_maps.dfy`: the insertion-ordered map, as a value (`Table`) and as a class
  (`InsertionMap`).
- `sdk.dfy`: SDK outcomes and calls.
- `indexer.dfy`, `dashboard.dfy`, `history.dfy`, `coin_types.dfy`, `send.dfy`, `receive.dfy`,
  `networks.dfy`, `header.dfy`, `network_switcher.dfy`, `app.dfy`: one per source file or
  concern.

## Model

| member | source | states |
|---|---|---|
| OrderedMaps.InsertionMap.constructor | src/services/indexer.ts:120 | `new Map()` is the empty table |
| OrderedMaps.InsertionMap.Set | src/services/indexer.ts:123 | `set` appends a new key at the end, keeps an existing key in place and replaces its value |
| OrderedMaps.InsertionMap.SetEach | src/services/indexer.ts:122-137 | one `forEach` loop over key/value pairs (with `set`, or with `if (!has) set`) leaves the map equal to the `Fill` fold of the old map over the pairs |
| OrderedMaps.FillKeys | src/services/indexer.ts:120-137 | after the loop the keys are the old keys followed by each new key at its first occurrence: an overwrite never moves a key |
| OrderedMaps.FillHas | src/services/indexer.ts:127 | after the loop the map has `k` iff it had `k` before or some pair has key `k` |
| OrderedMaps.FillOverwriteValue | src/services/indexer.ts:123 | with `set` the value of `k` is the last pair's value for `k`, or the old value when no pair has `k` |
| OrderedMaps.FillFirstValue | src/services/indexer.ts:126-130 | with `if (!has) set` an existing value is kept; otherwise the first pair's value for `k` wins |
| OrderedMaps.DedupFirstSeenOrder | src/services/indexer.ts:139-142 | de-duplication keeps the keys in the order of their first occurrence |
| OrderedMaps.DedupFacts | src/services/indexer.ts:139-142 | de-duplication has no repeats and exactly the keys of its input |
| OrderedMaps.EntriesOf | src/services/indexer.ts:139 | `Array.from(map.entries())` lists each key with its value, in key order |
| OrderedMaps.ValuesOf | src/services/indexer.ts:63 | `Array.from(map.values())` lists the value of each key, in key order |
| Indexer.RowsOf | src/services/indexer.ts:86-91 | a failed query, or one with no data, gives `[]`; a list of rows gives those rows |
| Indexer.NormalizedAddress | src/services/indexer.ts:78 | the address sent with the queries has the input's length, no upper-case letter, and equals the input ignoring case |
| Indexer.BalanceMergeCorrect | src/services/indexer.ts:120-142 | the merged balances are the distinct keys of the new, legacy and coin tables (coin rows keyed by `coin_type`) in first-seen order, each with the amount the precedence rule keeps |
| Indexer.PrecedenceValue | src/services/indexer.ts:123-137 | the amount kept for a key: the new table's last row for it if there is one, else the legacy table's first row, else the coin table's first row |
| Indexer.CombineBalancesSpec | src/services/indexer.ts:113-142 | the merged list has no repeated asset type, loses no key of any table, invents none, keeps first-seen order, and carries the precedence amount |
| Indexer.FailedSourceKeepsOthers | src/services/indexer.ts:86-91 | a failed or empty new table leaves exactly the merge of the other two: their distinct keys in first-seen order, each with its first legacy row's amount, else its first coin row's |
| Indexer.FetchAccountBalances | src/services/indexer.ts:74-147 | the three `forEach` loops over one `Map` compute `AccountBalances`; a result that is not a list gives `[]` |
| Indexer.ToBalances | src/services/indexer.ts:139-142 | one `{asset_type, amount}` per map entry, the key as `asset_type` and its value unchanged |
| Indexer.MetadataMergeCorrect | src/services/indexer.ts:51-63 | the merged metadata holds one record per distinct asset type of the two tables, in first-seen order, each the unchanged winning record |
| Indexer.WinningValue | src/services/indexer.ts:54-61 | the record kept for a key is the last fungible-asset record for it, else the first coin record, and that record's own `asset_type` is the key |
| Indexer.FetchFungibleAssetInfo | src/services/indexer.ts:14-68 | the two `forEach` loops over one `Map` compute `AssetMetadata`; a result that is not a list gives `[]` |
| Indexer.AccountActivities | src/services/indexer.ts:151-191 | the activity rows for the lowercased address exactly as the indexer lists them; `[]` when the query fails or answers without data; only a non-list answer is passed on as a non-list |
| Dashboard.FindMeta | src/components/Dashboard.tsx:31 | `find` gives a record of the list with the asked asset type, and nothing exactly when no record has it |
| Dashboard.FindMetaIsFirst | src/components/Dashboard.tsx:31 | the record `find` gives is the first of its type: no earlier record has that asset type |
| Dashboard.Decimals | src/components/Dashboard.tsx:32 | the metadata decimals when present and non-zero, otherwise 8, so never 0 |
| Dashboard.SymbolFallback | src/components/Dashboard.tsx:33 | the metadata symbol if non-empty, else `CED` for a native type, else a `::`-free suffix of the type that follows a `::` (the whole type when it has no `::`) |
| Dashboard.NameNeverEmpty | src/components/Dashboard.tsx:34 | the name is never empty: a non-empty metadata name is used as it is; without a metadata record, or with an empty name in it, the name is `Cedra` for a native type and `Unknown Token` otherwise |
| Dashboard.ParseAmount | src/components/Dashboard.tsx:41 | the model reads `Number(amount)` for the indexer's amounts only: a digit string gives its value, and every other text is taken as `NaN` |
| Dashboard.Rounded | src/components/Dashboard.tsx:41 | `amount / 10^decimals` in units of `10^-p`, rounded half-up |
| Dashboard.RoundedExact | src/components/Dashboard.tsx:41 | with as many fractional digits as decimals, nothing is rounded |
| Dashboard.FixedTextParts | src/components/Dashboard.tsx:41 | the fixed-point text has exactly `p` fractional digits, reads back as the value it was made from, and its integer part is the value divided by `10^p`, printed without leading zeros |
| Dashboard.FormatAmount | src/components/Dashboard.tsx:41 | `toFixed` throws exactly for negative decimals |
| Dashboard.FormatAmountDigits | src/components/Dashboard.tsx:41 | the formatted amount has exactly `min(decimals, 8)` fractional digits and denotes the rounded amount, exactly the amount when `decimals <= 8`; its integer part is the whole units of the rounded amount, printed without leading zeros |
| Dashboard.Enrich | src/components/Dashboard.tsx:30-43 | a token keeps its balance's `asset_type` and amount and gets the symbol, name and formatted amount of the fallback chains; its icon is the `icon_uri` of the first metadata record of its type, and none without a record; it throws exactly for negative decimals |
| Dashboard.EnrichAll | src/components/Dashboard.tsx:30-43 | one token per balance in the same order, and a throw exactly when some balance throws |
| Dashboard.EnrichAllKeepsBalances | src/components/Dashboard.tsx:30-43 | the tokens keep the balances' order, asset types and amounts |
| Dashboard.FindMetaInMerged | src/components/Dashboard.tsx:31 | on the merged metadata, `find` returns the record the merge kept |
| Dashboard.FetchedTokensDistinct | src/components/Dashboard.tsx:24-44 | a fetch whose enrichment does not throw (every fetch of a list without balances included) leaves one token per merged balance, in order, with no asset type twice |
| Dashboard.EmptyBalancesSkipMetadata | src/components/Dashboard.tsx:26-46 | with no balances the list becomes `[]`, whatever the metadata tables hold |
| Dashboard.NoRowSkipped | src/components/Dashboard.tsx:153 | the skip test never holds for a token of the list itself, so every token is rendered |
| Dashboard.ListView | src/components/Dashboard.tsx:146-189 | the loading message shows exactly when loading with no tokens yet; a non-empty list shows all its tokens; an empty one shows the empty message once loading is over |
| Dashboard.PrimaryRowAfterFetch | src/components/Dashboard.tsx:123 | after a fetch whose enrichment does not throw the fixed Cedra row is shown iff no merged balance's type contains `cedra_coin` |
| Dashboard.DashboardState.constructor | src/components/Dashboard.tsx:15-17 | the token list starts empty and `loadingTokens` false |
| Dashboard.DashboardState.View | src/components/Dashboard.tsx:146 | in every reachable state the loading message is not shown |
| Dashboard.DashboardState.FetchAllBalances | src/components/Dashboard.tsx:20-53 | without a wallet or indexer URL nothing changes; otherwise the list becomes `[]`, the enriched balances, or (on a throw) stays, and `loadingTokens` stays false |
| Dashboard.ThrownEnrichmentKeepsList | src/components/Dashboard.tsx:48-49 | when enriching a non-empty balance list throws, the list stays as it was |
| Dashboard.WholeCoinsFormat | src/components/Dashboard.tsx:41 | a whole number `k >= 1` of coins in base units at 8 decimals formats as `k.00000000` |
| Dashboard.NativeWithoutMetadata | src/components/Dashboard.tsx:31-41 | a native balance without a metadata record gets symbol `CED`, name `Cedra`, no icon, and its amount formatted at 8 decimals |
| Dashboard.BalancesDistinct | src/services/indexer.ts:120-142 | the merged balances never repeat an asset type, whatever the three tables return |
| TransactionHistory.DisplayTypeIsLastSegment | src/components/TransactionHistory.tsx:24 | the displayed type is the text after the last `::`, or the whole type when that is empty; it is a suffix and not empty for a non-empty type |
| TransactionHistory.ToRow | src/components/TransactionHistory.tsx:19-31 | a row is successful, keeps the amount, has hash `0x` plus the version, the version is the decimal text of the transaction version, and a deposit puts `External` as sender and the wallet as receiver, the reverse otherwise |
| TransactionHistory.ToRows | src/components/TransactionHistory.tsx:19 | one row per activity, in order |
| TransactionHistory.FirstRows | src/components/TransactionHistory.tsx:32 | `slice(0, 10)`: at most ten rows, a prefix, all of them when fewer than ten |
| TransactionHistory.HistoryIsFirstRows | src/components/TransactionHistory.tsx:17-41 | the history holds at most ten rows: the rows of the first `min(n, 10)` activities on the indexer path, the first `min(n, 10)` transactions on the SDK path, and none when either path fails |
| TransactionHistory.RowDirection | src/components/TransactionHistory.tsx:100-104 | a row is drawn as sent iff its sender is the wallet's address |
| TransactionHistory.IndexerRowLabel | src/components/TransactionHistory.tsx:100-104 | for an indexer row shown to its wallet, "Sent" and the up arrow mean exactly a non-deposit |
| TransactionHistory.HistoryState.constructor | src/components/TransactionHistory.tsx:8-9 | the history starts empty and loading |
| TransactionHistory.HistoryState.FetchHistory | src/components/TransactionHistory.tsx:12-44 | without a wallet nothing changes; otherwise the history is the fetched rows, `[]` on any failure, and loading is false |
| CoinTypes.StripCoinSuffix | src/components/SendTransaction.tsx:27 | one trailing `coin` in any ASCII case is removed, and nothing else |
| CoinTypes.NameIsThirdSegment | src/components/SendTransaction.tsx:25-28 | `address::module::Name` is named `Name` without a trailing `Coin` |
| CoinTypes.NameIgnoresLaterSegments | src/components/ReceiveTransaction.tsx:12-15 | segments after the third are ignored: the third segment is used, not the last |
| CoinTypes.ShortTypeIsCedra | src/components/ReceiveTransaction.tsx:17 | a type of one or two segments is named `Cedra` |
| CoinTypes.NativeCoinName | src/components/ReceiveTransaction.tsx:8 | `0x1::cedra_coin::CedraCoin` is named `Cedra` |
| Send.ActiveToken | src/components/SendTransaction.tsx:12 | the selected token when there is one, else the primary balance |
| Send.FromDashboard | src/components/Dashboard.tsx:160 | a dashboard token handed to the form keeps its name, asset type, symbol and formatted amount, and has no coin type |
| Send.TokenName | src/components/SendTransaction.tsx:20-30 | the token's own name when non-empty; `Cedra` without a token |
| Send.TokenSymbol | src/components/SendTransaction.tsx:32-34 | `symbol`, else the metadata symbol, else `CED`: never empty |
| Send.BalanceText | src/components/SendTransaction.tsx:36-38 | `formatted`, else `0.00`: never empty |
| Send.TypeLookupsDisagree | src/components/SendTransaction.tsx:52 | the name is parsed from `coinType` first while the asset sent prefers `asset_type`; with only one of them they agree |
| Send.SelectedDashboardToken | src/components/SendTransaction.tsx:20-23 | a token picked from the dashboard shows its enriched, non-empty name and is sent under its own asset type |
| Send.ErrorText | src/components/SendTransaction.tsx:69 | the exception message, or `Transaction failed` when it is empty |
| Send.SendError | src/components/SendTransaction.tsx:50-69 | the error is empty exactly when the balance lookup, the transfer and the refresh all returned |
| Send.CloseOnlyOnSuccess | src/components/SendTransaction.tsx:53-67 | the form is closed iff no error is left, and then the calls were the balance lookup, the transfer to the recipient of that asset, the refresh and the close |
| Send.SendForm.constructor | src/components/SendTransaction.tsx:14-18 | empty fields, the input step, not sending, no error |
| Send.SendForm.SetRecipient | src/components/SendTransaction.tsx:14 | only the recipient changes |
| Send.SendForm.SetAmount | src/components/SendTransaction.tsx:15 | only the amount changes |
| Send.SendForm.HandleNext | src/components/SendTransaction.tsx:40-43 | to the confirm step exactly when both fields are filled in; nothing else changes |
| Send.SendForm.Back | src/components/SendTransaction.tsx:122 | back to the input step; nothing else changes |
| Send.SendForm.HandleSend | src/components/SendTransaction.tsx:45-73 | without a wallet nothing changes; otherwise the calls stop at the first that throws, its message becomes the error (cleared on success), and `isSending` is false at the end |
| Receive.WalletAddress | src/components/ReceiveTransaction.tsx:6 | the wallet's address, `""` without a wallet |
| Receive.TokenName | src/components/ReceiveTransaction.tsx:9-18 | `Cedra` without a coin type |
| Receive.SameNameAsSendForm | src/components/ReceiveTransaction.tsx:9-18 | for the primary balance without a name, whose `coinType` is set or whose `asset_type` is empty, the receive form shows the same name as the send form (with only `asset_type` set the send form parses it and the receive form says `Cedra`) |
| Header.SelectRpcUrl | src/components/Header.tsx:10-16 | devnet and mainnet get their own URL, every other network the testnet URL |
| Header.HeaderState.constructor | src/components/Header.tsx:6-7 | the dropdown starts closed on testnet |
| Header.HeaderState.ToggleNetwork | src/components/Header.tsx:31 | the selector flips the dropdown and changes nothing else |
| Header.HeaderState.HandleNetworkSelect | src/components/Header.tsx:9-24 | the SDK is asked for the network's URL; only if that returns is the network recorded and the dropdown closed, and the data refreshed iff a wallet is present |
| NetworkSwitcher.RpcEndpoint | src/components/NetworkSwitcher.tsx:18-22 | the table has an entry exactly for mainnet, testnet and devnet |
| NetworkSwitcher.EndpointsAgreeWithHeader | src/components/NetworkSwitcher.tsx:18-22 | the switcher's table and the header's if-chain give the same URL for the three networks; for others the header falls back to testnet |
| NetworkSwitcher.ColoursDistinguishOffered | src/components/NetworkSwitcher.tsx:33-40 | red for mainnet, green for testnet, blue for devnet, green for any other; the three offered colours differ |
| NetworkSwitcher.SwitcherState.constructor | src/components/NetworkSwitcher.tsx:7-10 | the dropdown starts closed on the configured network, or testnet when none is configured |
| NetworkSwitcher.SwitcherState.Toggle | src/components/NetworkSwitcher.tsx:45 | the button flips the dropdown |
| NetworkSwitcher.SwitcherState.CloseBackdrop | src/components/NetworkSwitcher.tsx:75 | the backdrop closes the dropdown |
| NetworkSwitcher.SwitcherState.HandleNetworkChange | src/components/NetworkSwitcher.tsx:12-31 | the network is recorded and the dropdown closed whether or not the SDK call fails; the call gets the table's URL |
| App.ShortAddress | src/App.tsx:25 | for every length: the first `min(n, 6)` characters, `...`, the last `min(n, 4)`; so the whole address twice around the dots when it is shorter than four |
| App.SidebarAddress | src/App.tsx:11 | the short form of the wallet's address, with the six leading and four trailing characters of a long one; without a wallet only `...` is shown |
| App.AvatarLetter | src/App.tsx:32 | one letter: the upper-cased first character of the email, or `U` without one |
| App.LocalPart | src/App.tsx:35 | `split('@')[0]` is the prefix before the first `@`, free of `@`, or the whole email |
| App.SidebarUserName | src/App.tsx:35 | the text before the first `@`, or `User` when that is missing or empty: never empty |
| App.SidebarEmail | src/App.tsx:36 | the email, or `""` |
| App.MobileUserName | src/App.tsx:87 | the text before the first `@` when there is an email, with no `User` fallback |
| App.EmptyLocalPart | src/App.tsx:35 | an email starting with `@` is shown as `User` in the sidebar and as empty text in the mobile header |
| App.MainLayout | src/App.tsx:110-137 | the mobile header, the sidebar and the dashboard exactly when signed in, the landing page exactly when signed out, the modal in both |
| Text.IndexOf | src/components/Dashboard.tsx:33 | the position `split('::')` cuts at: -1 exactly when the separator does not occur, otherwise its first occurrence |
| Text.SplitJoin | src/components/Dashboard.tsx:33 | the parts of `split` contain no separator and join back to the string |
| Text.LastSegmentIsSuffix | src/components/Dashboard.tsx:33 | `split(sep).pop()` is a separator-free suffix, the whole string when the separator does not occur |
| Text.LastSegmentIsPreceded | src/components/TransactionHistory.tsx:24 | when the separator occurs, the last segment is preceded by it |
| Text.Take | src/App.tsx:25 | `slice(0, n)`: the first `n` characters, or all of them |
| Text.TakeLast | src/App.tsx:25 | `slice(-n)` for `n > 0`: the last `n` characters, or all of them |
| Text.ToLower | src/services/indexer.ts:78 | `toLowerCase` keeps the length and lowers each ASCII letter |
| Text.NatToString | src/components/TransactionHistory.tsx:29 | `toString` of a whole number is a digit string without a leading zero that denotes it |

## Left out

- The HTTP/GraphQL transport, JSON decoding and the query texts. Each query's answer is an
  input (`Indexer.Service`). The `amount > 0` filter is part of the server-side query text,
  so the model makes no claim about it.
- `Promise.all` concurrency and the `setInterval` polling. Each async handler runs as one
  atomic step, so `isSending == true` in `handleSend` is never observable between calls.
- Floating point. `Number(amount) / 10^decimals` followed by `toFixed` is modelled in exact
  decimal arithmetic with half-up rounding. Binary rounding and the exponent form that
  `toFixed` uses for values of `1e21` and above are not modelled. An amount that is not a
  plain digit string formats as `NaN`.
- Dashboard.ParseAmount: reads only plain digit strings, which is the form of the indexer's
  non-negative integer amounts. JavaScript's `Number` also parses other texts: leading or
  trailing white space (`" 5"`), a sign (`"-5"`, `"+5"`), a fraction (`"1.5"`), an exponent
  (`"1e3"`), hexadecimal, octal and binary literals (`"0x10"`), and `"Infinity"`. The model takes
  all of these as `NaN`, while the source formats them as numbers.
- `SendTransaction.tsx:58`: `Math.floor(parseFloat(amount) * 10^decimals)` is not modelled.
  The logged transfer carries the amount text and the decimals instead.
- Dates and timestamps in the history rows, and their locale formatting.
- The SDK's own behaviour (`getBalance`, `sendTransaction`, `updateNetwork`, `refreshData`,
  `getTransactionHistory`, `logout`). Each call is an outcome that returns or throws. The
  decimals `getBalance` reports are part of its outcome.
- `Header.HeaderState.HandleNetworkSelect` does not model a `refreshData` that throws. The
  model logs the call, and the rejection of the handler is not represented.
- `src/pages/Callback.tsx`, Hero, Footer, Authenticators, styles, hover handlers, `main.tsx`,
  `vite.config.ts` and the environment defaults in `src/config/sphere.ts`. The configured
  network is a constructor parameter of `NetworkSwitcher.SwitcherState`.
- The `isModalOpen`, `activeTab`, `activeModal` and `selectedToken` UI flags, logout, and the
  clipboard copy.
- Case conversion is ASCII only (`/Coin$/i`, `toLowerCase`, `toUpperCase`). Unicode case
  mapping is not modelled.
- A missing or falsy string field is represented as `""`. Values of other types in those
  fields (numbers, objects) are not modelled.
- Receive.TokenName: states only the `Cedra` fallback itself. The parsing rule is stated by
  `CoinTypes` lemmas about `NameFromType`, which it applies.
- Send.TokenName: states the explicit-name and no-token cases itself. The parsing of the
  type is stated by the `CoinTypes` lemmas and by `Send.TypeLookupsDisagree`.

=== FILE: app.dfy ===
/** The sidebar and mobile-header labels, and the top-level layout choice. */
module App {
  import opened Wrappers
  import opened Text
  import Receive

  /** `address.slice(0, 6) + '...' + address.slice(-4)`. */
  function ShortAddress(address: string): (r: string)
    ensures |address| < 4 ==> r == address + "..." + address
    ensures var head, tail := if |address| < 6 then |address| else 6, if |address| < 4 then |address| else 4;
            && |r| == head + 3 + tail
            && r[..head] == address[..head] && r[head..head + 3] == "..."
            && r[head + 3..] == address[|address| - tail..]
  {
    var front, back := Take(address, 6), TakeLast(address, 4);
    ConcatParts(front, "...", back);
    front + "..." + back
  }

  /** The sidebar's address line for the wallet (`wallet?.getAddress() || ''`): just the dots without one. */
  function SidebarAddress(wallet: Option<string>): (r: string)
    ensures wallet.None? ==> r == "..."
    ensures wallet.Some? ==> r == ShortAddress(wallet.value)
    ensures wallet.Some? && |wallet.value| >= 6 ==>
              |r| == 13 && r[..6] == wallet.value[..6] && r[9..] == wallet.value[|wallet.value| - 4..]
  {
    var address := Receive.WalletAddress(wallet);
    assert wallet.Some? ==> address == wallet.value;
    ShortAddress(address)
  }

  /** `email?.charAt(0).toUpperCase() || 'U'`. */
  function AvatarLetter(email: Option<string>): (r: string)
    ensures |r| == 1
    ensures email.None? || email.value == "" ==> r == "U"
    ensures email.Some? && email.value != "" ==> r[0] == UpperChar(email.value[0])
  {
    if email.None? || email.value == "" then "U" else [UpperChar(email.value[0])]
  }

  /** `email.split('@')[0]`: the text before the first `@`, or the whole email. */
  function LocalPart(email: string): (r: string)
    ensures |r| <= |email| && r == email[..|r|]
    ensures !Contains(r, "@")
    ensures !Contains(email, "@") ==> r == email
    ensures Contains(email, "@") ==> At(email, "@", |r|)
  {
    FirstPart(email, "@");
    var i := IndexOf(email, "@");
    if i == -1 then Split(email, "@")[0]
    else PrefixBeforeFirstIsFree(email, "@", i); Split(email, "@")[0]
  }

  /** `email?.split('@')[0] || 'User'`. */
  function SidebarUserName(email: Option<string>): (r: string)
    ensures r != ""
    ensures email.None? ==> r == "User"
    ensures email.Some? && LocalPart(email.value) != "" ==> r == LocalPart(email.value)
    ensures email.Some? && LocalPart(email.value) == "" ==> r == "User"
  {
    if email.None? || LocalPart(email.value) == "" then "User" else LocalPart(email.value)
  }

  /** `email || ''`. */
  function SidebarEmail(email: Option<string>): (r: string)
    ensures email.Some? ==> r == email.value
    ensures email.None? ==> r == ""
  {
    if email.Some? then email.value else ""
  }

  /** `email?.split('@')[0]` in the mobile header: nothing without an email, and no `User` fallback. */
  function MobileUserName(email: Option<string>): (r: Option<string>)
    ensures r.None? <==> email.None?
    ensures email.Some? ==> r == Some(LocalPart(email.value))
  {
    if email.None? then None else Some(LocalPart(email.value))
  }

  /** An email whose text before `@` is empty: the sidebar says `User`, the mobile header nothing visible. */
  lemma EmptyLocalPart()
    ensures SidebarUserName(Some("@mail.com")) == "User"
    ensures MobileUserName(Some("@mail.com")) == Some("")
  {
    assert At("@mail.com", "@", 0);
    assert Contains("@mail.com", "@");
  }

  /** The parts `MainLayout` renders. */
  datatype Part = Hero | SphereModal | MobileHeader | Sidebar | DashboardPart

  /** `MainLayout`: the landing page when signed out, the dashboard layout when signed in. */
  function MainLayout(isAuthenticated: bool): (parts: seq<Part>)
    ensures SphereModal in parts
    ensures DashboardPart in parts <==> isAuthenticated
    ensures Hero in parts <==> !isAuthenticated
    ensures MobileHeader in parts <==> isAuthenticated
    ensures Sidebar in parts <==> isAuthenticated
  {
    if isAuthenticated then [MobileHeader, Sidebar, DashboardPart, SphereModal]
    else [Hero, SphereModal]
  }
}

=== FILE: coin_types.dfy ===
/**
 * The token-name rule shared by the send and receive forms: split a Move type string on
 * `::`, take the third segment and drop one trailing `Coin`, in any letter case.
 */
module CoinTypes {
  import opened Text

  /** `s.replace(/Coin$/i, '')`: one trailing `coin`, compared without regard to ASCII case, removed. */
  function StripCoinSuffix(s: string): (r: string)
    ensures |r| <= |s| && r == s[..|r|]
    ensures r != s <==> |s| >= 4 && EqualsIgnoreCase(s[|s| - 4..], "coin")
    ensures r != s ==> |r| == |s| - 4
  {
    if |s| >= 4 && EqualsIgnoreCase(s[|s| - 4..], "coin") then s[..|s| - 4] else s
  }

  /** The name a form shows when the token has no name of its own; `""` stands for no type. */
  function NameFromType(typ: string): string {
    if typ == "" then "Cedra"
    else
      var parts := Split(typ, "::");
      if |parts| >= 3 then StripCoinSuffix(parts[2]) else "Cedra"
  }

  /** No `:` in `s`. */
  predicate ColonFree(s: string) {
    forall j :: 0 <= j < |s| ==> s[j] != ':'
  }

  /** Two colon-free segments in front of `rest` come out as the first two parts. */
  lemma TwoSegments(address: string, module_: string, rest: string)
    requires ColonFree(address) && ColonFree(module_)
    ensures Split(address + "::" + module_ + "::" + rest, "::") == [address, module_] + Split(rest, "::")
  {
    SplitAfterFree(module_, "::", rest);
    assert address + "::" + module_ + "::" + rest == address + "::" + (module_ + "::" + rest);
    SplitAfterFree(address, "::", module_ + "::" + rest);
  }

  /** For `address::module::Name`, the name is `Name` without a trailing `Coin`. */
  lemma NameIsThirdSegment(address: string, module_: string, name: string)
    requires ColonFree(address) && ColonFree(module_) && ColonFree(name)
    ensures NameFromType(address + "::" + module_ + "::" + name) == StripCoinSuffix(name)
  {
    SplitFree(name, "::");
    TwoSegments(address, module_, name);
  }

  /** Segments after the third are ignored: the third segment is used, not the last. */
  lemma NameIgnoresLaterSegments(address: string, module_: string, name: string, rest: string)
    requires ColonFree(address) && ColonFree(module_) && ColonFree(name)
    ensures NameFromType(address + "::" + module_ + "::" + name + "::" + rest) == StripCoinSuffix(name)
  {
    var tail := name + "::" + rest;
    var t := address + "::" + module_ + "::" + tail;
    assert address + "::" + module_ + "::" + name + "::" + rest == t;
    var parts := Split(t, "::");
    assert |parts| >= 3 && parts[2] == name by {
      SplitAfterFree(name, "::", rest);
      TwoSegments(address, module_, tail);
      assert parts == [address, module_] + ([name] + Split(rest, "::"));
    }
    ThirdSegmentName(t);
  }

  /** A type of three or more segments is named after its third. */
  lemma ThirdSegmentName(typ: string)
    requires |Split(typ, "::")| >= 3
    ensures NameFromType(typ) == StripCoinSuffix(Split(typ, "::")[2])
  {
  }

  /** With fewer than three segments the name is `Cedra`. */
  lemma {:induction false} ShortTypeIsCedra(address: string, module_: string)
    requires ColonFree(address) && ColonFree(module_)
    ensures NameFromType(address) == "Cedra"
    ensures NameFromType(address + "::" + module_) == "Cedra"
  {
    SplitFree(address, "::");
    SplitFree(module_, "::");
    SplitAfterFree(address, "::", module_);
  }

  /** The example in the receive form: `0x1::cedra_coin::CedraCoin` is named `Cedra`. */
  lemma NativeCoinName(typ: string)
    requires typ == "0x1::cedra_coin::CedraCoin"
    ensures NameFromType(typ) == "Cedra"
  {
    var address, module_, name := "0x1", "cedra_coin", "CedraCoin";
    assert typ == address + "::" + module_ + "::" + name;
    assert ColonFree(address) && ColonFree(module_) && ColonFree(name) by {
      NativeCoinSegmentsColonFree();
    }
    NameIsThirdSegment(address, module_, name);
    CedraCoinStrip(name);
  }

  lemma NativeCoinSegmentsColonFree()
    ensures ColonFree("0x1") && ColonFree("cedra_coin") && ColonFree("CedraCoin")
  {
  }

  lemma CedraCoinStrip(name: string)
    requires name == "CedraCoin"
    ensures StripCoinSuffix(name) == "Cedra"
  {
    assert name[|name| - 4..] == "Coin" && name[..|name| - 4] == "Cedra";
    CapitalCoin();
  }

  /** `Coin` matches the suffix pattern. */
  lemma CapitalCoin()
    ensures EqualsIgnoreCase("Coin", "coin")
  {
    var a, b := ToLower("Coin"), ToLower("coin");
    forall i | 0 <= i < 4 ensures a[i] == b[i] {
      assert 'A' <= "Coin"[i] <= 'Z' ==> i == 0;
    }
  }
}

=== FILE: dashboard.dfy ===
/**
 * The dashboard's token list: enrichment of the merged balances with their metadata
 * (decimals, symbol, name, icon and the formatted amount), the `fetchAllBalances` state
 * update, and the visibility rules of the token list.
 */
module Dashboard {
  import opened Wrappers
  import opened Text
  import opened OrderedMaps
  import opened Indexer

  /** An enriched balance: the balance's fields followed by `symbol`, `name`, `icon` and `formatted`. */
  datatype Token = Token(
    asset_type: string, amount: Amount, symbol: string, name: string,
    icon: Option<string>, formatted: string)

  /** The marker that identifies the native coin in an asset type. */
  const NativeMarker := "cedra_coin"

  // ---------------------------------------------------------------- enrichment fields

  /** `metadata.find(m => m.asset_type === assetType)`. */
  function FindMeta(metadata: seq<AssetInfo>, assetType: string): (r: Option<AssetInfo>)
    ensures r.None? <==> forall i :: 0 <= i < |metadata| ==> metadata[i].asset_type != assetType
    ensures r.Some? ==> r.value.asset_type == assetType && r.value in metadata
  {
    if assetType in MetaKeys(metadata) then
      Some(metadata[FirstIndex(MetaKeys(metadata), assetType)])
    else
      None
  }

  /** `find` stops at the first record of the asked type: no earlier record has that type. */
  lemma FindMetaIsFirst(metadata: seq<AssetInfo>, assetType: string)
    ensures var r := FindMeta(metadata, assetType);
            r.Some? ==> exists i :: 0 <= i < |metadata| && metadata[i] == r.value &&
                          forall j :: 0 <= j < i ==> metadata[j].asset_type != assetType
  {
    if assetType in MetaKeys(metadata) {
      var i := FirstIndex(MetaKeys(metadata), assetType);
      assert forall j :: 0 <= j < i ==> MetaKeys(metadata)[j] == metadata[j].asset_type;
    }
  }

  /** `meta?.decimals || 8`: a missing record and a zero both give 8. */
  function Decimals(meta: Option<AssetInfo>): (r: int)
    ensures r != 0
    ensures meta.Some? && meta.value.decimals != 0 ==> r == meta.value.decimals
    ensures meta.None? || meta.value.decimals == 0 ==> r == 8
  {
    if meta.Some? && meta.value.decimals != 0 then meta.value.decimals else 8
  }

  /** `meta?.symbol || (includes('cedra_coin') ? 'CED' : split('::').pop())`. */
  function Symbol(meta: Option<AssetInfo>, assetType: string): string {
    if meta.Some? && meta.value.symbol != "" then meta.value.symbol
    else if Contains(assetType, NativeMarker) then "CED"
    else LastSegment(assetType, "::")
  }

  /** `meta?.name || (includes('cedra_coin') ? 'Cedra' : 'Unknown Token')`. */
  function Name(meta: Option<AssetInfo>, assetType: string): string {
    if meta.Some? && meta.value.name != "" then meta.value.name
    else if Contains(assetType, NativeMarker) then "Cedra"
    else "Unknown Token"
  }

  /**
   * The symbol is never empty for a native asset type, and without a metadata symbol a
   * non-native type shows its text after the last `::`: a `::`-free suffix of the type
   * that follows a `::`, or the whole type when it has no `::`.
   */
  lemma SymbolFallback(meta: Option<AssetInfo>, assetType: string)
    ensures meta.Some? && meta.value.symbol != "" ==> Symbol(meta, assetType) == meta.value.symbol
    ensures (meta.None? || meta.value.symbol == "") && Contains(assetType, NativeMarker) ==>
              Symbol(meta, assetType) == "CED"
    ensures (meta.None? || meta.value.symbol == "") && !Contains(assetType, NativeMarker) ==>
              var s := Symbol(meta, assetType);
              && |s| <= |assetType| && assetType[|assetType| - |s|..] == s && !Contains(s, "::")
              && (!Contains(assetType, "::") ==> s == assetType)
              && (Contains(assetType, "::") ==> |s| + 2 <= |assetType| && At(assetType, "::", |assetType| - |s| - 2))
              && s == LastSegment(assetType, "::")
  {
    LastSegmentIsSuffix(assetType, "::");
    if Contains(assetType, "::") {
      LastSegmentIsPreceded(assetType, "::");
    }
  }

  /**
   * The name is never empty: a non-empty metadata name wins; without a record, or with an
   * empty name in it, `Cedra` for a native type and `Unknown Token` otherwise.
   */
  lemma NameNeverEmpty(meta: Option<AssetInfo>, assetType: string)
    ensures Name(meta, assetType) != ""
    ensures meta.Some? && meta.value.name != "" ==> Name(meta, assetType) == meta.value.name
    ensures meta.None? || meta.value.name == "" ==>
              Name(meta, assetType) == (if Contains(assetType, NativeMarker) then "Cedra" else "Unknown Token")
  {
  }

  // ---------------------------------------------------------------- the formatted amount

  /**
   * `Number(amount)` for the amounts the indexer returns: a string of decimal digits
   * denotes its value (the empty string denotes 0); `None` stands for `NaN`.
   */
  function ParseAmount(amount: Amount): (r: Option<nat>)
    ensures r.Some? <==> IsDigits(amount)
    ensures r.Some? ==> r.value == DigitsValue(amount)
  {
    if IsDigits(amount) then Some(DigitsValue(amount)) else None
  }

  lemma DivBounds(a: nat, q: nat)
    requires q > 0
    ensures q * (a / q) <= a < q * (a / q) + q
  {
  }

  lemma MulPositive(q: nat, x: int)
    requires x >= 1
    ensures q * x >= q
  {
  }

  /** The quotient is the unique `k` with `a` between `q * k` and `q * k + q`. */
  lemma DivUnique(a: nat, q: nat, k: nat, r: nat)
    requires 0 <= r < q && a == q * k + r
    ensures a / q == k
  {
    DivBounds(a, q);
    var m := a / q;
    if m > k {
      MulPositive(q, m - k);
    } else if m < k {
      MulPositive(q, k - m);
    }
  }

  lemma DivUniqueRight(a: nat, q: nat, k: nat, r: nat)
    requires 0 <= r < q && a == k * q + r
    ensures a / q == k
  {
    DivUnique(a, q, k, r);
  }

  function Div(a: nat, q: nat): (r: nat)
    requires q > 0
    ensures q * r <= a < q * r + q
  {
    DivBounds(a, q);
    a / q
  }

  /**
   * `n / 10^d` rounded half-up to `p` fractional digits, counted in units of `10^-p`: the
   * `m` with `m - 1/2 <= n * 10^p / 10^d < m + 1/2`.
   */
  function Rounded(n: nat, d: nat, p: nat): (m: nat)
    ensures var q := 2 * Pow10(d); var a := 2 * n * Pow10(p) + Pow10(d);
            q * m <= a < q * m + q
  {
    Div(2 * n * Pow10(p) + Pow10(d), 2 * Pow10(d))
  }

  /** With no more fractional digits than the scale, the rounding is exact. */
  lemma RoundedExact(n: nat, d: nat)
    ensures Rounded(n, d, d) == n
  {
    var t := Pow10(d);
    DivUnique(2 * n * t + t, 2 * t, n, t);
  }

  /** The digit string `s` with a point inserted before its last `p` digits. */
  function InsertPoint(s: string, p: nat): string
    requires p < |s|
  {
    s[..|s| - p] + "." + s[|s| - p..]
  }

  /**
   * The text of `m * 10^-p` with exactly `p` fractional digits and a single integer digit
   * below 1 (no point when `p` is 0).
   */
  function FixedText(m: nat, p: nat): string {
    if p == 0 then NatToString(m) else InsertPoint(PadZeros(NatToString(m), p + 1), p)
  }

  /** `s` is digits, a point, and exactly `p` digits. */
  predicate IsFixed(s: string, p: nat) {
    |s| >= p + 2 && s[|s| - p - 1] == '.' && IsDigits(s[..|s| - p - 1]) && IsDigits(s[|s| - p..])
  }

  /** The value of a fixed-point text, in units of `10^-p`. */
  function FixedValue(s: string, p: nat): nat
    requires IsFixed(s, p)
  {
    DigitsValue(s[..|s| - p - 1]) * Pow10(p) + DigitsValue(s[|s| - p..])
  }

  lemma InsertPointParts(s: string, p: nat)
    requires p < |s| && IsDigits(s)
    ensures IsFixed(InsertPoint(s, p), p) && FixedValue(InsertPoint(s, p), p) == DigitsValue(s)
  {
    var k := |s| - p;
    var r, w, g := InsertPoint(s, p), s[..k], s[k..];
    DigitsSplit(s, k);
    var v := DigitsValue(w) * Pow10(p) + DigitsValue(g);
    assert DigitsValue(s) == v;
    assert IsFixed(r, p) && FixedValue(r, p) == v by {
      InsertPointShape(s, p);
      FixedValueOf(r, p, w, g);
    }
  }

  /** A digit string cut at `k`: two digit strings, the first shifted by the length of the second. */
  lemma DigitsSplit(s: string, k: nat)
    requires k <= |s| && IsDigits(s)
    ensures IsDigits(s[..k]) && IsDigits(s[k..])
    ensures DigitsValue(s) == DigitsValue(s[..k]) * Pow10(|s| - k) + DigitsValue(s[k..])
  {
    var w, g := s[..k], s[k..];
    assert s == w + g;
    assert IsDigits(w) by {
      forall i | 0 <= i < |w| ensures IsDigit(w[i]) {
        assert w[i] == s[i];
      }
    }
    assert IsDigits(g) by {
      forall i | 0 <= i < |g| ensures IsDigit(g[i]) {
        assert g[i] == s[k + i];
      }
    }
    DigitsConcat(w, g);
  }

  lemma InsertPointShape(s: string, p: nat)
    requires p < |s|
    ensures var r := InsertPoint(s, p);
            && |r| == |s| + 1 && r[..|r| - p - 1] == s[..|s| - p] && r[|r| - p..] == s[|s| - p..]
            && r[|r| - p - 1] == '.'
  {
  }

  /** The value of a fixed-point text made of the digits `w`, a point and the digits `g`. */
  lemma FixedValueOf(r: string, p: nat, w: string, g: string)
    requires |r| >= p + 2 && r[|r| - p - 1] == '.' && IsDigits(w) && IsDigits(g)
    requires r[..|r| - p - 1] == w && r[|r| - p..] == g
    ensures IsFixed(r, p)
    ensures FixedValue(r, p) == DigitsValue(w) * Pow10(p) + DigitsValue(g)
  {
  }

  /** `FixedText(m, p)` has `p` fractional digits and reads back as `m`. */
  lemma FixedTextValue(m: nat, p: nat)
    requires p > 0
    ensures IsFixed(FixedText(m, p), p) && FixedValue(FixedText(m, p), p) == m
  {
    PadZerosValue(NatToString(m), p + 1);
    InsertPointParts(PadZeros(NatToString(m), p + 1), p);
  }

  /** The integer part of `FixedText(m, p)` is a single digit or starts with a non-zero one. */
  lemma FixedTextWholeCanonical(m: nat, p: nat)
    requires p > 0
    ensures var s := FixedText(m, p);
            |s| >= p + 2 && (s[0] != '0' || |s| == p + 2)
  {
    var t := NatToString(m);
    var pad := PadZeros(t, p + 1);
    InsertPointShape(pad, p);
    assert |NatToString(0)| == 1;
    if |t| >= p + 1 {
      assert pad == t;
    }
  }

  /**
   * Reading `FixedText(m, p)` back gives `m`: it has `p` fractional digits and loses
   * nothing, and its integer part is `m / 10^p` printed without leading zeros.
   */
  lemma FixedTextParts(m: nat, p: nat)
    requires p > 0
    ensures IsFixed(FixedText(m, p), p) && FixedValue(FixedText(m, p), p) == m
    ensures var s := FixedText(m, p); s[..|s| - p - 1] == NatToString(Div(m, Pow10(p)))
  {
    FixedTextValue(m, p);
    FixedTextWholeCanonical(m, p);
    FixedWhole(FixedText(m, p), p);
  }

  /** A fixed-point text whose integer part has no leading zero prints that part canonically. */
  lemma FixedWhole(s: string, p: nat)
    requires IsFixed(s, p) && (s[0] != '0' || |s| == p + 2)
    ensures s[..|s| - p - 1] == NatToString(Div(FixedValue(s, p), Pow10(p)))
  {
    var whole, frac := s[..|s| - p - 1], s[|s| - p..];
    assert whole[0] == s[0];
    NatToStringCanonical(whole);
    DigitsBelowPow10(frac);
    DivUniqueRight(FixedValue(s, p), Pow10(p), DigitsValue(whole), DigitsValue(frac));
  }

  /**
   * `(Number(amount) / Math.pow(10, decimals)).toFixed(Math.min(decimals, 8))`. `None`
   * stands for the `RangeError` that `toFixed` throws for a negative digit count.
   */
  function FormatAmount(amount: Amount, decimals: int): (r: Option<string>)
    ensures r.None? <==> decimals < 0
  {
    var p := if decimals < 8 then decimals else 8;
    if p < 0 then None
    else match ParseAmount(amount) {
      case None => Some("NaN")
      case Some(n) => Some(FixedText(Rounded(n, decimals, p), p))
    }
  }

  /**
   * A formatted amount has exactly `min(decimals, 8)` fractional digits; its digits
   * denote the amount scaled by `10^-decimals` and rounded half-up, exactly when
   * `decimals <= 8`.
   */
  lemma FormatAmountDigits(amount: Amount, decimals: int)
    requires decimals > 0 && IsDigits(amount)
    ensures var p := if decimals < 8 then decimals else 8;
            var s := FormatAmount(amount, decimals).value;
            && IsFixed(s, p)
            && FixedValue(s, p) == Rounded(DigitsValue(amount), decimals, p)
            && (decimals <= 8 ==> FixedValue(s, p) == DigitsValue(amount))
            && s[..|s| - p - 1] == NatToString(Div(Rounded(DigitsValue(amount), decimals, p), Pow10(p)))
  {
    var p := if decimals < 8 then decimals else 8;
    var m := Rounded(DigitsValue(amount), decimals, p);
    assert FormatAmount(amount, decimals) == Some(FixedText(m, p));
    FixedTextParts(m, p);
    if decimals <= 8 {
      assert p == decimals;
      RoundedExact(DigitsValue(amount), decimals);
      assert m == DigitsValue(amount);
    }
  }

  // ---------------------------------------------------------------- enrichment

  /**
   * The enrichment of one balance against the metadata list; `None` when formatting its
   * amount throws.
   */
  function Enrich(b: Balance, metadata: seq<AssetInfo>): (r: Option<Token>)
    ensures r.None? <==> Decimals(FindMeta(metadata, b.asset_type)) < 0
    ensures r.Some? ==>
              && r.value.asset_type == b.asset_type && r.value.amount == b.amount
              && r.value.symbol == Symbol(FindMeta(metadata, b.asset_type), b.asset_type)
              && r.value.name == Name(FindMeta(metadata, b.asset_type), b.asset_type)
              && r.value.formatted == FormatAmount(b.amount, Decimals(FindMeta(metadata, b.asset_type))).value
              && r.value.icon == (var meta := FindMeta(metadata, b.asset_type);
                                  if meta.Some? then meta.value.icon_uri else None)
  {
    var meta := FindMeta(metadata, b.asset_type);
    var decimals := Decimals(meta);
    match FormatAmount(b.amount, decimals) {
      case None => None
      case Some(formatted) =>
        Some(Token(b.asset_type, b.amount, Symbol(meta, b.asset_type), Name(meta, b.asset_type),
                   if meta.Some? then meta.value.icon_uri else None, formatted))
    }
  }

  /** `balances.map(...)`: one token per balance, or `None` when any of them throws. */
  function EnrichAll(balances: seq<Balance>, metadata: seq<AssetInfo>): (r: Option<seq<Token>>)
    ensures r.None? <==> exists i :: 0 <= i < |balances| && Enrich(balances[i], metadata).None?
    ensures r.Some? ==>
              && |r.value| == |balances|
              && forall i :: 0 <= i < |balances| ==> Enrich(balances[i], metadata) == Some(r.value[i])
  {
    if |balances| == 0 then Some([])
    else
      var first := Enrich(balances[0], metadata);
      var rest := EnrichAll(balances[1..], metadata);
      if first.None? then None
      else if rest.None? then
        assert exists i :: 0 <= i < |balances[1..]| && Enrich(balances[1..][i], metadata).None?;
        None
      else Some([first.value] + rest.value)
  }

  /** Tokens keep the balances' order, asset types and amounts. */
  lemma EnrichAllKeepsBalances(balances: seq<Balance>, metadata: seq<AssetInfo>)
    requires EnrichAll(balances, metadata).Some?
    ensures var ts := EnrichAll(balances, metadata).value;
            |ts| == |balances| &&
            forall i :: 0 <= i < |ts| ==> ts[i].asset_type == balances[i].asset_type && ts[i].amount == balances[i].amount
  {
  }

  /** On the merged metadata list, the record `find` returns is the record the merge kept. */
  lemma FindMetaInMerged(faMeta: seq<AssetInfo>, coinMeta: seq<AssetInfo>, k: string)
    requires k in MetaKeys(faMeta) + MetaKeys(coinMeta)
    ensures FindMeta(ValuesOf(MetadataTable(faMeta, coinMeta)), k) == Some(WinningRecord(faMeta, coinMeta, k))
  {
    var r := ValuesOf(MetadataTable(faMeta, coinMeta));
    MetadataMergeCorrect(faMeta, coinMeta);
    DedupFacts(MetaKeys(faMeta) + MetaKeys(coinMeta));
    assert k in MetaKeys(r);
    var i := FirstIndex(MetaKeys(r), k);
    assert r[i].asset_type == k;
  }

  // ---------------------------------------------------------------- fetchAllBalances

  /**
   * The token list after one `fetchAllBalances` for `address`: `[]` when there are no
   * balances, the enriched balances on success, and the previous list when enrichment throws.
   */
  function TokensAfterFetch(previous: seq<Token>, service: Service, address: string): seq<Token> {
    var balances := AccountBalances(service, address);
    if |balances| == 0 then []
    else match EnrichAll(balances, AssetMetadata(service, AssetTypes(balances))) {
      case None => previous
      case Some(tokens) => tokens
    }
  }

  /** The fetch writes a new list: there are no balances, or enriching them did not throw. */
  predicate FetchReplaces(service: Service, address: string) {
    var balances := AccountBalances(service, address);
    |balances| == 0 || EnrichAll(balances, AssetMetadata(service, AssetTypes(balances))).Some?
  }

  /**
   * After a fetch that replaced the list, there is one token per merged balance, in the
   * same order, and no asset type appears twice.
   */
  lemma FetchedTokensDistinct(previous: seq<Token>, service: Service, address: string)
    requires FetchReplaces(service, address)
    ensures var balances := AccountBalances(service, address);
            var tokens := TokensAfterFetch(previous, service, address);
            && |tokens| == |balances|
            && (forall i :: 0 <= i < |tokens| ==> tokens[i].asset_type == balances[i].asset_type && tokens[i].amount == balances[i].amount)
            && (forall i, j :: 0 <= i < j < |tokens| ==> tokens[i].asset_type != tokens[j].asset_type)
  {
    var balances := AccountBalances(service, address);
    var tokens := TokensAfterFetch(previous, service, address);
    var enriched := EnrichAll(balances, AssetMetadata(service, AssetTypes(balances)));
    assert enriched == Some(tokens);
    EnrichAllKeepsBalances(balances, AssetMetadata(service, AssetTypes(balances)));
    var types := AssetTypes(balances);
    assert Distinct(types) by { BalancesDistinct(service, address); }
    forall i, j | 0 <= i < j < |tokens| ensures tokens[i].asset_type != tokens[j].asset_type {
      assert types[i] == tokens[i].asset_type && types[j] == tokens[j].asset_type;
    }
  }

  /** The merged balances never repeat an asset type. */
  lemma BalancesDistinct(service: Service, address: string)
    ensures Distinct(AssetTypes(AccountBalances(service, address)))
  {
    var a := NormalizedAddress(address);
    var fa, coins, legacyFa := service.faBalances(a), service.coinBalances(a), service.legacyFaBalances(a);
    if !(fa.NotAList? || coins.NotAList? || legacyFa.NotAList?) {
      CombineBalancesSpec(fa, coins, legacyFa);
    }
  }

  /** When enriching a non-empty balance list throws, the `catch` leaves the previous list. */
  lemma ThrownEnrichmentKeepsList(previous: seq<Token>, service: Service, address: string)
    requires var balances := AccountBalances(service, address);
             |balances| > 0 && EnrichAll(balances, AssetMetadata(service, AssetTypes(balances))).None?
    ensures TokensAfterFetch(previous, service, address) == previous
    ensures !FetchReplaces(service, address)
  {
  }

  /** With no balances the list becomes `[]`, whatever the metadata tables hold. */
  lemma EmptyBalancesSkipMetadata(previous: seq<Token>, s1: Service, s2: Service, address: string)
    requires s1.faBalances == s2.faBalances && s1.coinBalances == s2.coinBalances
    requires s1.legacyFaBalances == s2.legacyFaBalances
    requires AccountBalances(s1, address) == []
    ensures TokensAfterFetch(previous, s1, address) == []
    ensures TokensAfterFetch(previous, s2, address) == []
  {
  }

  /** The token list shown under "My tokens". */
  datatype TokenListView = LoadingMessage | TokenRows(rows: seq<Token>) | NoTokensMessage

  predicate IsNative(t: Token) {
    Contains(t.asset_type, NativeMarker)
  }

  /** `allTokens.some(t => t.asset_type.includes('cedra_coin'))`. */
  predicate HasNativeToken(tokens: seq<Token>) {
    exists i :: 0 <= i < |tokens| && IsNative(tokens[i])
  }

  /** The skip test applied to each row: native, while no token of the list is native. */
  predicate SkipRow(item: Token, allTokens: seq<Token>) {
    IsNative(item) && !HasNativeToken(allTokens)
  }

  /** The rows `allTokens.map(...)` renders: those whose skip test fails. */
  function RenderedRows(rows: seq<Token>, allTokens: seq<Token>): (r: seq<Token>)
    ensures |r| <= |rows|
  {
    if |rows| == 0 then []
    else (if SkipRow(rows[0], allTokens) then [] else [rows[0]]) + RenderedRows(rows[1..], allTokens)
  }

  /** The skip test never holds for a row of the list itself, so every token is rendered. */
  lemma {:induction false} NoRowSkipped(rows: seq<Token>, allTokens: seq<Token>)
    requires forall i :: 0 <= i < |rows| ==> rows[i] in allTokens
    ensures RenderedRows(rows, allTokens) == rows
  {
    if |rows| > 0 {
      var i :| 0 <= i < |allTokens| && allTokens[i] == rows[0];
      assert !SkipRow(rows[0], allTokens) by {
        if IsNative(rows[0]) {
          assert IsNative(allTokens[i]);
        }
      }
      NoRowSkipped(rows[1..], allTokens);
    }
  }

  /** The list area: the loading message, the rendered rows, or the empty message. */
  function ListView(loadingTokens: bool, allTokens: seq<Token>): (v: TokenListView)
    ensures !loadingTokens ==> !v.LoadingMessage?
    ensures |allTokens| > 0 ==> v == TokenRows(allTokens)
    ensures |allTokens| == 0 && !loadingTokens ==> v == NoTokensMessage
    ensures v.LoadingMessage? <==> loadingTokens && |allTokens| == 0
  {
    if loadingTokens && |allTokens| == 0 then LoadingMessage
    else if |allTokens| > 0 then
      NoRowSkipped(allTokens, allTokens);
      TokenRows(RenderedRows(allTokens, allTokens))
    else NoTokensMessage
  }

  /** The fixed Cedra row above the list is shown when no token is native. */
  predicate ShowsPrimaryRow(allTokens: seq<Token>) {
    !HasNativeToken(allTokens)
  }

  /**
   * Once a fetch lists a native balance, the fixed Cedra row gives way to the token's own
   * row: it is shown iff no merged balance is native.
   */
  lemma PrimaryRowAfterFetch(previous: seq<Token>, service: Service, address: string)
    requires FetchReplaces(service, address)
    ensures ShowsPrimaryRow(TokensAfterFetch(previous, service, address)) <==>
              forall i :: 0 <= i < |AccountBalances(service, address)| ==>
                !Contains(AccountBalances(service, address)[i].asset_type, NativeMarker)
  {
    FetchedTokensDistinct(previous, service, address);
  }

  /** The state `fetchAllBalances` writes. */
  class DashboardState {
    var allTokens: seq<Token>
    var loadingTokens: bool

    /** `loadingTokens` is only ever assigned `false`. */
    ghost predicate Valid()
      reads this
    {
      !loadingTokens
    }

    /** `useState<any[]>([])` and `useState(false)`. */
    constructor ()
      ensures Valid() && allTokens == []
    {
      allTokens := [];
      loadingTokens := false;
    }

    /** What the token area shows; never the loading message in a reachable state. */
    function View(): (v: TokenListView)
      reads this
      requires Valid()
      ensures !v.LoadingMessage?
      ensures |allTokens| > 0 ==> v == TokenRows(allTokens)
    {
      ListView(loadingTokens, allTokens)
    }

    /**
     * `fetchAllBalances`: with no wallet or no indexer URL nothing changes; otherwise the
     * list becomes `TokensAfterFetch` for the wallet's address and `loadingTokens` is false.
     */
    method FetchAllBalances(wallet: Option<string>, indexerUrl: string, service: Service)
      requires Valid()
      modifies this
      ensures Valid()
      ensures wallet.None? || indexerUrl == "" ==> allTokens == old(allTokens)
      ensures wallet.Some? && indexerUrl != "" ==>
                allTokens == TokensAfterFetch(old(allTokens), service, wallet.value)
    {
      if wallet.None? || indexerUrl == "" {
        return;
      }
      var address := wallet.value;
      var balances := FetchAccountBalances(service, address);
      if |balances| > 0 {
        var assetTypes := AssetTypes(balances);
        var metadata := FetchFungibleAssetInfo(service, assetTypes);
        var enriched := EnrichAll(balances, metadata);
        if enriched.Some? {
          allTokens := enriched.value;
        }
        // otherwise `toFixed` threw inside the map: the error is logged and the list kept
      } else {
        allTokens := [];
      }
      loadingTokens := false;
    }
  }

  /**
   * A whole number of coins at eight decimals prints as that number, a point and eight
   * zeros: `k` followed by eight zeros is `k.00000000`.
   */
  lemma WholeCoinsFormat(k: nat)
    requires k >= 1
    ensures FormatAmount(NatToString(k) + Zeros(8), 8) == Some(NatToString(k) + "." + Zeros(8))
  {
    var d, z := NatToString(k), Zeros(8);
    var amount := d + z;
    ZerosValue(z);
    DigitsConcat(d, z);
    var n := DigitsValue(amount);
    assert ParseAmount(amount) == Some(n);
    assert Rounded(n, 8, 8) == n by {
      RoundedExact(n, 8);
    }
    assert NatToString(n) == amount by {
      assert amount[0] == d[0];
      NatToStringCanonical(amount);
    }
    assert FixedText(n, 8) == d + "." + z by {
      assert PadZeros(amount, 9) == amount;
      assert amount[..|amount| - 8] == d && amount[|amount| - 8..] == z;
    }
  }

  /** A native balance with no metadata record: `CED`, `Cedra`, no icon, eight decimals. */
  lemma NativeWithoutMetadata(assetType: string, amount: Amount)
    requires Contains(assetType, NativeMarker)
    ensures Enrich(Balance(assetType, amount), []) ==
              Some(Token(assetType, amount, "CED", "Cedra", None, FormatAmount(amount, 8).value))
  {
  }
}

=== FILE: header.dfy ===
/** The header's network selector: the dropdown and the switch through the SDK. */
module Header {
  import opened Wrappers
  import opened Sdk
  import opened Networks

  /** The URL `handleNetworkSelect` passes for `network`. */
  function SelectRpcUrl(network: string): (url: string)
    ensures network == Devnet ==> url == DevnetUrl
    ensures network == Mainnet ==> url == MainnetUrl
    ensures network != Devnet && network != Mainnet ==> url == TestnetUrl
  {
    if network == Devnet then DevnetUrl
    else if network == Mainnet then MainnetUrl
    else TestnetUrl
  }

  /** The header's state, with the calls it has made. */
  class HeaderState {
    var isNetworkOpen: bool
    var currentNetwork: string
    var calls: seq<SdkCall>

    /** `useState(false)` and `useState<Network>('testnet')`. */
    constructor ()
      ensures !isNetworkOpen && currentNetwork == Testnet && calls == []
    {
      isNetworkOpen, currentNetwork, calls := false, Testnet, [];
    }

    /** A click on the selector. */
    method ToggleNetwork()
      modifies this
      ensures isNetworkOpen == !old(isNetworkOpen)
      ensures currentNetwork == old(currentNetwork) && calls == old(calls)
    {
      isNetworkOpen := !isNetworkOpen;
    }

    /**
     * `handleNetworkSelect`: ask the SDK to switch; only once that returns, record the
     * network, close the dropdown and, with a wallet, refresh. A failed switch changes
     * nothing but the call log.
     */
    method HandleNetworkSelect(network: string, walletPresent: bool, update: Outcome<()>)
      modifies this
      ensures update.Threw? ==>
                && isNetworkOpen == old(isNetworkOpen) && currentNetwork == old(currentNetwork)
                && calls == old(calls) + [UpdateNetwork(network, Some(SelectRpcUrl(network)))]
      ensures update.Ok? ==>
                && !isNetworkOpen && currentNetwork == network
                && calls == old(calls) + [UpdateNetwork(network, Some(SelectRpcUrl(network)))] +
                            (if walletPresent then [RefreshData] else [])
    {
      var rpcUrl := TestnetUrl;
      if network == Devnet {
        rpcUrl := DevnetUrl;
      } else if network == Mainnet {
        rpcUrl := MainnetUrl;
      }
      calls := calls + [UpdateNetwork(network, Some(rpcUrl))];
      if update.Threw? {
        // the rejection propagates out of the handler before any state update
        return;
      }
      currentNetwork := network;
      isNetworkOpen := false;
      if walletPresent {
        calls := calls + [RefreshData];
      }
    }
  }
}

=== FILE: history.dfy ===
/**
 * The activity tab: indexer activities turned into history rows, the `fetchHistory` state
 * update with its SDK fallback, and the Sent/Received label of each row.
 */
module TransactionHistory {
  import opened Wrappers
  import opened Text
  import opened Indexer
  import opened Sdk

  /** A history row (the timestamp is not modelled). */
  datatype HistoryRow = HistoryRow(
    hash: string, success: bool, rowType: string, sender: string, receiver: string,
    amount: Amount, version: string)

  /** The counterpart shown for the side of a transfer that is not the wallet. */
  const External := "External"

  /** The most rows the tab keeps. */
  const MaxRows: nat := 10

  /** `activity.type.includes('DepositEvent')`. */
  predicate IsDeposit(a: Activity) {
    Contains(a.activityType, "DepositEvent")
  }

  /** `type.split('::').pop() || type`. */
  function DisplayType(typ: string): string {
    var last := LastSegment(typ, "::");
    if last == "" then typ else last
  }

  /**
   * The displayed type is the text after the last `::` when that is non-empty, and the
   * whole type otherwise: a suffix of the type, never empty for a non-empty type.
   */
  lemma DisplayTypeIsLastSegment(typ: string)
    ensures var r := DisplayType(typ);
            && |r| <= |typ| && typ[|typ| - |r|..] == r
            && (typ != "" ==> r != "")
            && (!Contains(typ, "::") ==> r == typ)
            && (r != typ ==> !Contains(r, "::") && |r| + 2 <= |typ| && At(typ, "::", |typ| - |r| - 2))
            && (r != typ ==> r == LastSegment(typ, "::"))
  {
    LastSegmentIsSuffix(typ, "::");
    if Contains(typ, "::") {
      LastSegmentIsPreceded(typ, "::");
    }
  }

  /** The row for one activity, seen from the wallet at `address`. */
  function ToRow(a: Activity, address: string): (row: HistoryRow)
    ensures row.success
    ensures row.amount == a.amount
    ensures row.hash == "0x" + row.version
    ensures IsDigits(row.version) && DigitsValue(row.version) == a.transaction_version
    ensures IsDeposit(a) ==> row.sender == External && row.receiver == address
    ensures !IsDeposit(a) ==> row.sender == address && row.receiver == External
    ensures row.rowType == DisplayType(a.activityType)
  {
    var version := NatToString(a.transaction_version);
    var deposit := IsDeposit(a);
    HistoryRow(
      "0x" + version, true, DisplayType(a.activityType),
      if deposit then External else address,
      if deposit then address else External,
      a.amount, version)
  }

  function ToRows(activities: seq<Activity>, address: string): (rows: seq<HistoryRow>)
    ensures |rows| == |activities|
    ensures forall i :: 0 <= i < |rows| ==> rows[i] == ToRow(activities[i], address)
  {
    seq(|activities|, i requires 0 <= i < |activities| => ToRow(activities[i], address))
  }

  /** `rows.slice(0, 10)`. */
  function FirstRows<T>(rows: seq<T>): (r: seq<T>)
    ensures |r| <= MaxRows && |r| <= |rows| && r == rows[..|r|]
    ensures |rows| >= MaxRows ==> |r| == MaxRows
    ensures |rows| < MaxRows ==> r == rows
  {
    if |rows| < MaxRows then rows else rows[..MaxRows]
  }

  /**
   * The history after one `fetchHistory` for the wallet at `address`: from the indexer
   * when there is an indexer URL, from the SDK otherwise; `[]` when either fails.
   */
  function HistoryAfterFetch(address: string, indexerUrl: string, service: Service,
                             sdkHistory: Outcome<seq<HistoryRow>>): seq<HistoryRow>
  {
    if indexerUrl != "" then
      match AccountActivities(service, address, DefaultActivityLimit) {
        case None => []
        case Some(activities) => FirstRows(ToRows(activities, address))
      }
    else
      match sdkHistory {
        case Threw(_) => []
        case Ok(txs) => FirstRows(txs)
      }
  }

  /**
   * The history holds at most ten rows, the first ones in input order: on the indexer
   * path the rows of the first activities, on the SDK path the first transactions; a
   * failure on either path leaves no rows.
   */
  lemma HistoryIsFirstRows(address: string, indexerUrl: string, service: Service,
                           sdkHistory: Outcome<seq<HistoryRow>>)
    ensures var h := HistoryAfterFetch(address, indexerUrl, service, sdkHistory);
            && |h| <= MaxRows
            && (indexerUrl != "" && AccountActivities(service, address, DefaultActivityLimit).Some? ==>
                  var acts := AccountActivities(service, address, DefaultActivityLimit).value;
                  |h| == (if |acts| < MaxRows then |acts| else MaxRows) &&
                  forall i :: 0 <= i < |h| ==> h[i] == ToRow(acts[i], address))
            && (indexerUrl == "" && sdkHistory.Ok? ==>
                  var txs := sdkHistory.value;
                  |h| == (if |txs| < MaxRows then |txs| else MaxRows) && h == txs[..|h|])
            && (indexerUrl != "" && AccountActivities(service, address, DefaultActivityLimit).None? ==> h == [])
            && (indexerUrl == "" && sdkHistory.Threw? ==> h == [])
  {
  }

  /** Whether a row is drawn as sent or received. */
  datatype Direction = Sent | Received

  /** `tx.sender === wallet?.getAddress()`: sent when the sender is the wallet's address. */
  function RowDirection(row: HistoryRow, wallet: Option<string>): (d: Direction)
    ensures d == Sent <==> wallet.Some? && row.sender == wallet.value
  {
    if wallet.Some? && row.sender == wallet.value then Sent else Received
  }

  function Label(d: Direction): string {
    match d
    case Sent => "Sent"
    case Received => "Received"
  }

  function Arrow(d: Direction): string {
    match d
    case Sent => "↑"
    case Received => "↓"
  }

  /**
   * For an indexer row shown to the wallet it was built for, "Sent" with the up arrow
   * means exactly a non-deposit activity (unless the address is literally `External`).
   */
  lemma IndexerRowLabel(a: Activity, address: string)
    requires address != External
    ensures var d := RowDirection(ToRow(a, address), Some(address));
            && (Label(d) == "Sent" <==> !IsDeposit(a))
            && (Arrow(d) == "↑" <==> !IsDeposit(a))
  {
  }

  /** The state `fetchHistory` writes. */
  class HistoryState {
    var history: seq<HistoryRow>
    var loading: bool

    /** `useState<any[]>([])` and `useState(true)`. */
    constructor ()
      ensures history == [] && loading
    {
      history := [];
      loading := true;
    }

    /**
     * `fetchHistory`: with no wallet nothing changes; otherwise the history is replaced
     * and `loading` becomes false, whatever happened.
     */
    method FetchHistory(wallet: Option<string>, indexerUrl: string, service: Service,
                        sdkHistory: Outcome<seq<HistoryRow>>)
      modifies this
      ensures wallet.None? ==> history == old(history) && loading == old(loading)
      ensures wallet.Some? ==>
                && !loading
                && history == HistoryAfterFetch(wallet.value, indexerUrl, service, sdkHistory)
    {
      if wallet.None? {
        return;
      }
      var address := wallet.value;
      if indexerUrl != "" {
        var activities := AccountActivities(service, address, DefaultActivityLimit);
        if activities.None? {
          // `activities.map` is not a function: the `catch` clears the history
          history := [];
        } else {
          var mapped := ToRows(activities.value, address);
          history := FirstRows(mapped);
        }
      } else {
        match sdkHistory {
          case Threw(_) =>
            history := [];
          case Ok(txs) =>
            history := FirstRows(txs);
        }
      }
      loading := false;
    }
  }
}

=== FILE: indexer.dfy ===
/**
 * The indexer service layer: the per-table fetches (each of which degrades to an empty
 * list on failure), the precedence merge of the three balance tables, the precedence
 * merge of the two metadata tables, and the activity fetch. What the indexer answers to
 * each query is an input (`Service`); the HTTP/GraphQL transport is not modelled.
 */
module Indexer {
  import opened Wrappers
  import opened Text
  import opened OrderedMaps

  /** An amount as the indexer returns it (an integer in decimal text). */
  type Amount = string

  /** A row of `current_fungible_asset_balances_new` or `current_fungible_asset_balances`. */
  datatype FaBalanceRow = FaBalanceRow(asset_type: string, amount: Amount)

  /** A row of `current_coin_balances`. */
  datatype CoinBalanceRow = CoinBalanceRow(coin_type: string, amount: Amount)

  /** A merged balance: `{ asset_type, amount }`. */
  datatype Balance = Balance(asset_type: string, amount: Amount)

  /** A row of `fungible_asset_metadata`, or of `coin_infos` with `coin_type` aliased to `asset_type`. */
  datatype AssetInfo = AssetInfo(
    symbol: string, name: string, decimals: int, asset_type: string,
    icon_uri: Option<string>, typename: string)

  /** A row of `fungible_asset_activities`. */
  datatype Activity = Activity(
    transaction_version: nat, owner_address: string, asset_type: string,
    amount: Amount, activityType: string)

  /**
   * The outcome of one query: the request or JSON decoding failed, the response had no
   * data under the result key (missing, `null` or otherwise falsy), a list of rows, or a
   * truthy value that is not a list.
   */
  datatype Fetched<T> = Failed | NoData | Rows(rows: seq<T>) | NotAList

  /** `result.data?.[resultKey] || []`, with a caught failure read as `[]`. */
  function RowsOf<T>(f: Fetched<T>): (r: seq<T>)
    ensures f.Rows? ==> r == f.rows
    ensures !f.Rows? ==> r == []
  {
    if f.Rows? then f.rows else []
  }

  /** What the indexer answers to each query, given the query's variables. */
  datatype Service = Service(
    faBalances: string -> Fetched<FaBalanceRow>,
    coinBalances: string -> Fetched<CoinBalanceRow>,
    legacyFaBalances: string -> Fetched<FaBalanceRow>,
    faMetadata: seq<string> -> Fetched<AssetInfo>,
    coinMetadata: seq<string> -> Fetched<AssetInfo>,
    activities: (string, nat) -> Fetched<Activity>)

  /** The address every query is sent with: the input address lowercased. */
  function NormalizedAddress(address: string): (r: string)
    ensures |r| == |address|
    ensures forall i :: 0 <= i < |r| ==> !('A' <= r[i] <= 'Z')
    ensures EqualsIgnoreCase(r, address)
  {
    ToLowerIsLower(address);
    ToLower(address)
  }

  // ---------------------------------------------------------------- balances

  function FaPairs(rows: seq<FaBalanceRow>): (r: seq<(string, Amount)>)
    ensures |r| == |rows|
    ensures forall i :: 0 <= i < |rows| ==> r[i] == (rows[i].asset_type, rows[i].amount)
  {
    seq(|rows|, i requires 0 <= i < |rows| => (rows[i].asset_type, rows[i].amount))
  }

  function CoinPairs(rows: seq<CoinBalanceRow>): (r: seq<(string, Amount)>)
    ensures |r| == |rows|
    ensures forall i :: 0 <= i < |rows| ==> r[i] == (rows[i].coin_type, rows[i].amount)
  {
    seq(|rows|, i requires 0 <= i < |rows| => (rows[i].coin_type, rows[i].amount))
  }

  /** The map after the three `forEach` loops: new table with `set`, then legacy and coins with `if (!has) set`. */
  function BalanceTable(fa: seq<FaBalanceRow>, legacyFa: seq<FaBalanceRow>, coins: seq<CoinBalanceRow>): (t: Table<Amount>)
    ensures WellFormed(t)
  {
    Fill(Fill(Fill(Empty(), FaPairs(fa), true), FaPairs(legacyFa), false), CoinPairs(coins), false)
  }

  /** `Array.from(map.entries()).map(([type, amt]) => ({ asset_type: type, amount: amt }))`. */
  function ToBalances(t: Table<Amount>): (r: seq<Balance>)
    requires WellFormed(t)
    ensures |r| == |t.keys|
    ensures forall i :: 0 <= i < |r| ==> r[i].asset_type == t.keys[i] && t.keys[i] in t.vals && r[i].amount == t.vals[t.keys[i]]
  {
    var entries := EntriesOf(t);
    seq(|entries|, i requires 0 <= i < |entries| => Balance(entries[i].0, entries[i].1))
  }

  /**
   * The merge of the three table results, in the order `Promise.all` lists them. A result
   * that is not a list makes its `forEach` throw, and the outer `catch` returns `[]`.
   */
  function CombineBalances(fa: Fetched<FaBalanceRow>, coins: Fetched<CoinBalanceRow>, legacyFa: Fetched<FaBalanceRow>): seq<Balance>
  {
    if fa.NotAList? || legacyFa.NotAList? || coins.NotAList? then []
    else ToBalances(BalanceTable(RowsOf(fa), RowsOf(legacyFa), RowsOf(coins)))
  }

  /** `fetchAccountBalances(indexerUrl, address)`. */
  function AccountBalances(service: Service, address: string): seq<Balance> {
    var a := NormalizedAddress(address);
    CombineBalances(service.faBalances(a), service.coinBalances(a), service.legacyFaBalances(a))
  }

  /** `balances.map(b => b.asset_type)`. */
  function AssetTypes(bs: seq<Balance>): (r: seq<string>)
    ensures |r| == |bs|
    ensures forall i :: 0 <= i < |bs| ==> r[i] == bs[i].asset_type
  {
    seq(|bs|, i requires 0 <= i < |bs| => bs[i].asset_type)
  }

  function FaKeys(rows: seq<FaBalanceRow>): (r: seq<string>)
    ensures |r| == |rows|
    ensures forall i :: 0 <= i < |rows| ==> r[i] == rows[i].asset_type
  {
    seq(|rows|, i requires 0 <= i < |rows| => rows[i].asset_type)
  }

  function CoinKeys(rows: seq<CoinBalanceRow>): (r: seq<string>)
    ensures |r| == |rows|
    ensures forall i :: 0 <= i < |rows| ==> r[i] == rows[i].coin_type
  {
    seq(|rows|, i requires 0 <= i < |rows| => rows[i].coin_type)
  }

  /** Every key of the three tables, in precedence order. */
  function BalanceKeys(fa: seq<FaBalanceRow>, legacyFa: seq<FaBalanceRow>, coins: seq<CoinBalanceRow>): seq<string> {
    FaKeys(fa) + FaKeys(legacyFa) + CoinKeys(coins)
  }

  /**
   * The amount the precedence rule keeps for `k`: the new table's last row for `k` when it
   * has one, else the legacy table's first row for `k`, else the coin table's first row.
   */
  function PrecedenceAmount(fa: seq<FaBalanceRow>, legacyFa: seq<FaBalanceRow>, coins: seq<CoinBalanceRow>, k: string): Amount
    requires k in BalanceKeys(fa, legacyFa, coins)
  {
    if k in FaKeys(fa) then fa[LastIndex(FaKeys(fa), k)].amount
    else if k in FaKeys(legacyFa) then legacyFa[FirstIndex(FaKeys(legacyFa), k)].amount
    else coins[FirstIndex(CoinKeys(coins), k)].amount
  }

  /**
   * The merged list holds one balance per distinct key of the three tables, in first-seen
   * order along the precedence chain, each with the amount the precedence rule keeps.
   */
  lemma BalanceMergeCorrect(fa: seq<FaBalanceRow>, legacyFa: seq<FaBalanceRow>, coins: seq<CoinBalanceRow>)
    ensures var r := ToBalances(BalanceTable(fa, legacyFa, coins));
            && AssetTypes(r) == Dedup(BalanceKeys(fa, legacyFa, coins))
            && forall i :: 0 <= i < |r| ==>
                 r[i].asset_type in BalanceKeys(fa, legacyFa, coins) &&
                 r[i].amount == PrecedenceAmount(fa, legacyFa, coins, r[i].asset_type)
  {
    var t1 := Fill(Empty(), FaPairs(fa), true);
    var t2 := Fill(t1, FaPairs(legacyFa), false);
    var t3 := Fill(t2, CoinPairs(coins), false);
    FaPairsKeys(fa);
    FaPairsKeys(legacyFa);
    CoinPairsKeys(coins);
    FillKeys(Empty(), FaPairs(fa), true);
    FillKeys(t1, FaPairs(legacyFa), false);
    FillKeys(t2, CoinPairs(coins), false);
    AppendNewConcat([], FaKeys(fa), FaKeys(legacyFa));
    AppendNewConcat([], FaKeys(fa) + FaKeys(legacyFa), CoinKeys(coins));
    var r := ToBalances(t3);
    assert AssetTypes(r) == t3.keys;
    DedupFacts(BalanceKeys(fa, legacyFa, coins));
    forall i | 0 <= i < |r|
      ensures r[i].asset_type in BalanceKeys(fa, legacyFa, coins)
      ensures r[i].amount == PrecedenceAmount(fa, legacyFa, coins, r[i].asset_type)
    {
      var k := r[i].asset_type;
      assert k in Dedup(BalanceKeys(fa, legacyFa, coins));
      PrecedenceValue(fa, legacyFa, coins, k);
    }
  }

  lemma PrecedenceValue(fa: seq<FaBalanceRow>, legacyFa: seq<FaBalanceRow>, coins: seq<CoinBalanceRow>, k: string)
    requires k in BalanceKeys(fa, legacyFa, coins)
    ensures k in BalanceTable(fa, legacyFa, coins).vals
    ensures BalanceTable(fa, legacyFa, coins).vals[k] == PrecedenceAmount(fa, legacyFa, coins, k)
  {
    var t1 := Fill(Empty(), FaPairs(fa), true);
    var t2 := Fill(t1, FaPairs(legacyFa), false);
    FaPairsKeys(fa);
    FaPairsKeys(legacyFa);
    CoinPairsKeys(coins);
    FillHas(Empty(), FaPairs(fa), true, k);
    FillHas(t1, FaPairs(legacyFa), false, k);
    if k in FaKeys(fa) {
      FillOverwriteValue(Empty(), FaPairs(fa), k);
    }
    if k in t1.vals || k in FaKeys(legacyFa) {
      FillFirstValue(t1, FaPairs(legacyFa), k);
    }
    FillFirstValue(t2, CoinPairs(coins), k);
  }

  /**
   * The merge of the fetched results: one balance per distinct key, every key of every
   * table kept, first-seen order, and precedence of new over legacy over coin.
   */
  lemma CombineBalancesSpec(fa: Fetched<FaBalanceRow>, coins: Fetched<CoinBalanceRow>, legacyFa: Fetched<FaBalanceRow>)
    requires !fa.NotAList? && !coins.NotAList? && !legacyFa.NotAList?
    ensures var r := CombineBalances(fa, coins, legacyFa);
            var keys := BalanceKeys(RowsOf(fa), RowsOf(legacyFa), RowsOf(coins));
            && Distinct(AssetTypes(r))
            && (forall k :: k in keys ==> k in AssetTypes(r))
            && (forall i :: 0 <= i < |r| ==> r[i].asset_type in keys)
            && (forall i, j :: 0 <= i < j < |r| ==>
                  FirstIndex(keys, r[i].asset_type) < FirstIndex(keys, r[j].asset_type))
            && (forall i :: 0 <= i < |r| ==>
                  r[i].amount == PrecedenceAmount(RowsOf(fa), RowsOf(legacyFa), RowsOf(coins), r[i].asset_type))
  {
    var keys := BalanceKeys(RowsOf(fa), RowsOf(legacyFa), RowsOf(coins));
    BalanceMergeCorrect(RowsOf(fa), RowsOf(legacyFa), RowsOf(coins));
    DedupFacts(keys);
    DedupFirstSeenOrder(keys);
    var r := CombineBalances(fa, coins, legacyFa);
    forall i, j | 0 <= i < j < |r|
      ensures FirstIndex(keys, r[i].asset_type) < FirstIndex(keys, r[j].asset_type)
    {
      assert AssetTypes(r)[i] == r[i].asset_type && AssetTypes(r)[j] == r[j].asset_type;
    }
  }

  /**
   * A new table that failed or returned no data leaves the merge of the other two: their
   * distinct keys in first-seen order, each with its first legacy row's amount, else its
   * first coin row's.
   */
  lemma FailedSourceKeepsOthers(fa: Fetched<FaBalanceRow>, coins: Fetched<CoinBalanceRow>, legacyFa: Fetched<FaBalanceRow>)
    requires fa.Failed? || fa.NoData?
    requires !coins.NotAList? && !legacyFa.NotAList?
    ensures var r, legacy, coinRows := CombineBalances(fa, coins, legacyFa), RowsOf(legacyFa), RowsOf(coins);
            && AssetTypes(r) == Dedup(FaKeys(legacy) + CoinKeys(coinRows))
            && forall i :: 0 <= i < |r| ==>
                 if r[i].asset_type in FaKeys(legacy) then
                   r[i].amount == legacy[FirstIndex(FaKeys(legacy), r[i].asset_type)].amount
                 else
                   r[i].asset_type in CoinKeys(coinRows) &&
                   r[i].amount == coinRows[FirstIndex(CoinKeys(coinRows), r[i].asset_type)].amount
  {
    var legacy, coinRows := RowsOf(legacyFa), RowsOf(coins);
    var r := CombineBalances(fa, coins, legacyFa);
    assert r == ToBalances(BalanceTable([], legacy, coinRows));
    BalanceMergeCorrect([], legacy, coinRows);
    NoNewTableKeys(legacy, coinRows);
    forall i | 0 <= i < |r|
      ensures r[i].amount == PrecedenceAmount([], legacy, coinRows, r[i].asset_type)
      ensures r[i].asset_type in FaKeys(legacy) + CoinKeys(coinRows)
    {
    }
    assert FaKeys([]) == [];
  }

  /** Without rows from the new table the keys are the legacy keys, then the coin keys. */
  lemma NoNewTableKeys(legacy: seq<FaBalanceRow>, coinRows: seq<CoinBalanceRow>)
    ensures BalanceKeys([], legacy, coinRows) == FaKeys(legacy) + CoinKeys(coinRows)
  {
    var none: seq<FaBalanceRow> := [];
    var front, back := FaKeys(legacy), CoinKeys(coinRows);
    assert FaKeys(none) == [];
    assert [] + front + back == front + back;
  }

  /** The keys of the new or legacy table's pairs are its rows' asset types. */
  lemma FaPairsKeys(rows: seq<FaBalanceRow>)
    ensures KeysOf(FaPairs(rows)) == FaKeys(rows)
  {
  }

  /** The keys of the coin table's pairs are its rows' coin types. */
  lemma CoinPairsKeys(rows: seq<CoinBalanceRow>)
    ensures KeysOf(CoinPairs(rows)) == CoinKeys(rows)
  {
  }

  /**
   * `fetchAccountBalances`: fetch the three tables for the lowercased address, fill a
   * `Map` from them in precedence order, and list its entries.
   */
  method FetchAccountBalances(service: Service, address: string) returns (r: seq<Balance>)
    ensures r == AccountBalances(service, address)
  {
    var normalizedAddress := NormalizedAddress(address);
    var fa := service.faBalances(normalizedAddress);
    var coins := service.coinBalances(normalizedAddress);
    var legacyFa := service.legacyFaBalances(normalizedAddress);

    if fa.NotAList? || legacyFa.NotAList? || coins.NotAList? {
      // the `forEach` over a value that is not a list throws; the `catch` returns `[]`
      return [];
    }
    var combined := new InsertionMap<Amount>();
    combined.SetEach(FaPairs(RowsOf(fa)), true);
    combined.SetEach(FaPairs(RowsOf(legacyFa)), false);
    combined.SetEach(CoinPairs(RowsOf(coins)), false);
    r := ToBalances(combined.Model());
  }

  // ---------------------------------------------------------------- metadata

  function MetaPairs(rows: seq<AssetInfo>): (r: seq<(string, AssetInfo)>)
    ensures |r| == |rows|
    ensures forall i :: 0 <= i < |rows| ==> r[i] == (rows[i].asset_type, rows[i])
  {
    seq(|rows|, i requires 0 <= i < |rows| => (rows[i].asset_type, rows[i]))
  }

  /** `m.asset_type` of every record. */
  function MetaKeys(rows: seq<AssetInfo>): (r: seq<string>)
    ensures |r| == |rows|
    ensures forall i :: 0 <= i < |rows| ==> r[i] == rows[i].asset_type
  {
    seq(|rows|, i requires 0 <= i < |rows| => rows[i].asset_type)
  }

  /** The map after the two `forEach` loops: metadata with `set`, then coin infos with `if (!has) set`. */
  function MetadataTable(faMeta: seq<AssetInfo>, coinMeta: seq<AssetInfo>): (t: Table<AssetInfo>)
    ensures WellFormed(t)
  {
    Fill(Fill(Empty(), MetaPairs(faMeta), true), MetaPairs(coinMeta), false)
  }

  /** The merge of the two metadata results; a result that is not a list makes it `[]`. */
  function CombineMetadata(faMeta: Fetched<AssetInfo>, coinMeta: Fetched<AssetInfo>): seq<AssetInfo> {
    if faMeta.NotAList? || coinMeta.NotAList? then []
    else ValuesOf(MetadataTable(RowsOf(faMeta), RowsOf(coinMeta)))
  }

  /** `fetchFungibleAssetInfo(indexerUrl, assetTypes)`. */
  function AssetMetadata(service: Service, assetTypes: seq<string>): seq<AssetInfo> {
    CombineMetadata(service.faMetadata(assetTypes), service.coinMetadata(assetTypes))
  }

  /** The record kept for `k`: the last metadata record for `k`, else the first coin-info record. */
  function WinningRecord(faMeta: seq<AssetInfo>, coinMeta: seq<AssetInfo>, k: string): AssetInfo
    requires k in MetaKeys(faMeta) + MetaKeys(coinMeta)
  {
    if k in MetaKeys(faMeta) then faMeta[LastIndex(MetaKeys(faMeta), k)]
    else coinMeta[FirstIndex(MetaKeys(coinMeta), k)]
  }

  /**
   * One record per distinct asset type of the two tables, in first-seen order, each the
   * unchanged record the precedence rule keeps.
   */
  lemma {:induction false} MetadataMergeCorrect(faMeta: seq<AssetInfo>, coinMeta: seq<AssetInfo>)
    ensures var r := ValuesOf(MetadataTable(faMeta, coinMeta));
            && MetaKeys(r) == Dedup(MetaKeys(faMeta) + MetaKeys(coinMeta))
            && forall i :: 0 <= i < |r| ==>
                 r[i].asset_type in MetaKeys(faMeta) + MetaKeys(coinMeta) &&
                 r[i] == WinningRecord(faMeta, coinMeta, r[i].asset_type)
  {
    var all := MetaKeys(faMeta) + MetaKeys(coinMeta);
    var t1 := Fill(Empty(), MetaPairs(faMeta), true);
    var t2 := Fill(t1, MetaPairs(coinMeta), false);
    assert KeysOf(MetaPairs(faMeta)) == MetaKeys(faMeta);
    assert KeysOf(MetaPairs(coinMeta)) == MetaKeys(coinMeta);
    FillKeys(Empty(), MetaPairs(faMeta), true);
    FillKeys(t1, MetaPairs(coinMeta), false);
    AppendNewConcat([], MetaKeys(faMeta), MetaKeys(coinMeta));
    DedupFacts(all);
    var r := ValuesOf(t2);
    forall i | 0 <= i < |r|
      ensures r[i].asset_type == t2.keys[i]
      ensures r[i].asset_type in all && r[i] == WinningRecord(faMeta, coinMeta, r[i].asset_type)
    {
      var k := t2.keys[i];
      assert k in Dedup(all);
      WinningValue(faMeta, coinMeta, k);
    }
    assert MetaKeys(r) == t2.keys;
  }

  /** The record stored under `k` is the winning record, and its own `asset_type` is `k`. */
  lemma WinningValue(faMeta: seq<AssetInfo>, coinMeta: seq<AssetInfo>, k: string)
    requires k in MetaKeys(faMeta) + MetaKeys(coinMeta)
    ensures k in MetadataTable(faMeta, coinMeta).vals
    ensures MetadataTable(faMeta, coinMeta).vals[k] == WinningRecord(faMeta, coinMeta, k)
    ensures WinningRecord(faMeta, coinMeta, k).asset_type == k
  {
    var t1 := Fill(Empty(), MetaPairs(faMeta), true);
    assert KeysOf(MetaPairs(faMeta)) == MetaKeys(faMeta);
    assert KeysOf(MetaPairs(coinMeta)) == MetaKeys(coinMeta);
    FillHas(Empty(), MetaPairs(faMeta), true, k);
    if k in MetaKeys(faMeta) {
      FillOverwriteValue(Empty(), MetaPairs(faMeta), k);
    }
    FillFirstValue(t1, MetaPairs(coinMeta), k);
  }

  /** `fetchFungibleAssetInfo`: fetch both metadata tables and merge them through a `Map`. */
  method FetchFungibleAssetInfo(service: Service, assetTypes: seq<string>) returns (r: seq<AssetInfo>)
    ensures r == AssetMetadata(service, assetTypes)
  {
    var faMeta := service.faMetadata(assetTypes);
    var coinMeta := service.coinMetadata(assetTypes);

    if faMeta.NotAList? || coinMeta.NotAList? {
      return [];
    }
    var combined := new InsertionMap<AssetInfo>();
    combined.SetEach(MetaPairs(RowsOf(faMeta)), true);
    combined.SetEach(MetaPairs(RowsOf(coinMeta)), false);
    r := ValuesOf(combined.Model());
  }

  // ---------------------------------------------------------------- activities

  /** The `limit` `fetchAccountActivities` uses when its caller passes none. */
  const DefaultActivityLimit: nat := 50

  /**
   * `fetchAccountActivities(indexerUrl, address, limit)`: the activity rows for the
   * lowercased address, `[]` on failure or missing data; `None` stands for a truthy value
   * that is not a list, which the function passes on unchanged.
   */
  function AccountActivities(service: Service, address: string, limit: nat): (r: Option<seq<Activity>>)
    ensures r.None? <==> service.activities(NormalizedAddress(address), limit).NotAList?
    ensures var f := service.activities(NormalizedAddress(address), limit);
            (f.Failed? || f.NoData?) ==> r == Some([])
    ensures var f := service.activities(NormalizedAddress(address), limit);
            f.Rows? ==> r == Some(f.rows)
  {
    var f := service.activities(NormalizedAddress(address), limit);
    if f.NotAList? then None else Some(RowsOf(f))
  }
}

=== FILE: network_switcher.dfy ===
/** The dashboard's network switcher: its endpoint table, colours and dropdown. */
module NetworkSwitcher {
  import opened Wrappers
  import opened Sdk
  import opened Networks
  import Header

  /** `rpcEndpoints[network]`: `None` for a name outside the table. */
  function RpcEndpoint(network: string): (r: Option<string>)
    ensures r.Some? <==> network in Offered
  {
    if network == Mainnet then Some(MainnetUrl)
    else if network == Testnet then Some(TestnetUrl)
    else if network == Devnet then Some(DevnetUrl)
    else None
  }

  /** `getNetworkColor`. */
  function NetworkColor(network: string): string {
    if network == Mainnet then "#ef4444"
    else if network == Testnet then "#22c55e"
    else if network == Devnet then "#3b82f6"
    else "#22c55e"
  }

  /**
   * Mainnet is red, testnet green and devnet blue; unknown networks are drawn in the
   * testnet colour, and the three offered ones in three different colours.
   */
  lemma ColoursDistinguishOffered(network: string)
    ensures NetworkColor(Mainnet) == "#ef4444" && NetworkColor(Testnet) == "#22c55e" && NetworkColor(Devnet) == "#3b82f6"
    ensures network !in Offered ==> NetworkColor(network) == NetworkColor(Testnet)
    ensures forall a, b :: a in Offered && b in Offered && a != b ==> NetworkColor(a) != NetworkColor(b)
  {
  }

  /**
   * The switcher's table and the header's if-chain give the same URL for each offered
   * network; for any other name the header falls back to testnet while the table has no entry.
   */
  lemma EndpointsAgreeWithHeader(network: string)
    ensures network in Offered ==> RpcEndpoint(network) == Some(Header.SelectRpcUrl(network))
    ensures network !in Offered ==> RpcEndpoint(network).None? && Header.SelectRpcUrl(network) == TestnetUrl
  {
  }

  /** The switcher's state, with the calls it has made. */
  class SwitcherState {
    var showDropdown: bool
    var currentNetwork: string
    var calls: seq<SdkCall>

    /** `useState(false)` and `useState(SPHERE_CONFIG.network || 'testnet')`. */
    constructor (configNetwork: string)
      ensures !showDropdown && calls == []
      ensures currentNetwork == if configNetwork == "" then Testnet else configNetwork
    {
      showDropdown, calls := false, [];
      currentNetwork := if configNetwork == "" then Testnet else configNetwork;
    }

    /** The switcher button. */
    method Toggle()
      modifies this
      ensures showDropdown == !old(showDropdown)
      ensures currentNetwork == old(currentNetwork) && calls == old(calls)
    {
      showDropdown := !showDropdown;
    }

    /** A click on the backdrop. */
    method CloseBackdrop()
      modifies this
      ensures !showDropdown
      ensures currentNetwork == old(currentNetwork) && calls == old(calls)
    {
      showDropdown := false;
    }

    /**
     * `handleNetworkChange`: record the network and close the dropdown first, then ask the
     * SDK to switch; its failure is swallowed, so the new state stands whatever `update` is.
     */
    method HandleNetworkChange(network: string, update: Outcome<()>)
      modifies this
      ensures currentNetwork == network && !showDropdown
      ensures calls == old(calls) + [UpdateNetwork(network, RpcEndpoint(network))]
    {
      currentNetwork := network;
      showDropdown := false;
      var rpcEndpoint := RpcEndpoint(network);
      calls := calls + [UpdateNetwork(network, rpcEndpoint)];
    }
  }
}

=== FILE: networks.dfy ===
/** The Cedra networks the application can switch between, and their RPC endpoints. */
module Networks {
  const Mainnet := "mainnet"
  const Testnet := "testnet"
  const Devnet := "devnet"

  const MainnetUrl := "https://mainnet.cedra.dev/v1"
  const TestnetUrl := "https://testnet.cedra.dev/v1"
  const DevnetUrl := "https://devnet.cedra.dev/v1"

  /** The networks offered in the switcher's list, in its order. */
  const Offered: seq<string> := [Mainnet, Testnet, Devnet]
}

=== FILE: ordered_maps.dfy ===
/**
 * JavaScript's `Map`: a dictionary that remembers the order in which keys were first
 * inserted. `Table` is its value, `InsertionMap` the mutable object the merges fill;
 * `Fill` is a whole `forEach` loop over key/value pairs, either overwriting (`set`)
 * or first-writer-wins (`if (!has) set`).
 */
module OrderedMaps {

  /** Keys are the strings the merges use (asset types). */
  type Key = string

  /** No element occurs twice. */
  ghost predicate Distinct<T>(s: seq<T>) {
    forall i, j :: 0 <= i < j < |s| ==> s[i] != s[j]
  }

  /** Keys in insertion order, and the value currently stored under each. */
  datatype Table<V> = Table(keys: seq<Key>, vals: map<Key, V>)

  ghost predicate WellFormed<V>(t: Table<V>) {
    && Distinct(t.keys)
    && (forall k :: k in t.vals ==> k in t.keys)
    && (forall k :: k in t.keys ==> k in t.vals)
  }

  function Empty<V>(): (t: Table<V>)
    ensures WellFormed(t)
  {
    Table([], map[])
  }

  /** `map.set(k, v)`: a new key goes to the end, an existing key keeps its place. */
  function Put<V>(t: Table<V>, k: Key, v: V): (r: Table<V>)
    requires WellFormed(t)
    ensures WellFormed(r)
    ensures r.keys == if k in t.vals then t.keys else t.keys + [k]
    ensures r.vals == t.vals[k := v]
  {
    Table(if k in t.vals then t.keys else t.keys + [k], t.vals[k := v])
  }

  /** The keys of a sequence of pairs. */
  function KeysOf<V>(kvs: seq<(Key, V)>): (ks: seq<Key>)
    ensures |ks| == |kvs|
    ensures forall i :: 0 <= i < |kvs| ==> ks[i] == kvs[i].0
  {
    seq(|kvs|, i requires 0 <= i < |kvs| => kvs[i].0)
  }

  /**
   * A `forEach` over `kvs` that calls `map.set(k, v)` for every pair when `overwrite`
   * holds, and only for keys the map does not have yet otherwise.
   */
  function Fill<V>(t: Table<V>, kvs: seq<(Key, V)>, overwrite: bool): (r: Table<V>)
    requires WellFormed(t)
    ensures WellFormed(r)
    decreases |kvs|
  {
    if |kvs| == 0 then t
    else Apply(Fill(t, kvs[..|kvs| - 1], overwrite), kvs[|kvs| - 1], overwrite)
  }

  /** One iteration of the `forEach`: `set` the pair, or only when its key is new. */
  function Apply<V>(t: Table<V>, kv: (Key, V), overwrite: bool): (r: Table<V>)
    requires WellFormed(t)
    ensures WellFormed(r)
  {
    if overwrite || kv.0 !in t.vals then Put(t, kv.0, kv.1) else t
  }

  /** One more step of `Fill`: the pair at index `i` applied to the fill of the pairs before it. */
  lemma FillStep<V>(t: Table<V>, kvs: seq<(Key, V)>, i: nat, overwrite: bool)
    requires WellFormed(t) && i < |kvs|
    ensures Fill(t, kvs[..i + 1], overwrite) == Apply(Fill(t, kvs[..i], overwrite), kvs[i], overwrite)
  {
    assert kvs[..i + 1][..i] == kvs[..i];
  }

  /** `s` followed by the elements of `xs` not seen before, each at its first occurrence. */
  function AppendNew<T(==)>(s: seq<T>, xs: seq<T>): seq<T>
    decreases |xs|
  {
    if |xs| == 0 then s
    else
      var p := AppendNew(s, xs[..|xs| - 1]);
      if xs[|xs| - 1] in p then p else p + [xs[|xs| - 1]]
  }

  /** The distinct elements of `xs` in order of first occurrence. */
  function Dedup<T(==)>(xs: seq<T>): seq<T> {
    AppendNew([], xs)
  }

  /** The index of the first occurrence of `x`. */
  function FirstIndex<T(==)>(s: seq<T>, x: T): (i: nat)
    requires x in s
    ensures i < |s| && s[i] == x && x !in s[..i]
  {
    if s[0] == x then 0
    else
      var j := FirstIndex(s[1..], x);
      assert s[..j + 1] == [s[0]] + s[1..][..j];
      j + 1
  }

  /** The index of the last occurrence of `x`. */
  function LastIndex<T(==)>(s: seq<T>, x: T): (i: nat)
    requires x in s
    ensures i < |s| && s[i] == x && x !in s[i + 1..]
  {
    if s[|s| - 1] == x then |s| - 1
    else
      var j := LastIndex(s[..|s| - 1], x);
      assert s[j + 1..] == s[..|s| - 1][j + 1..] + [s[|s| - 1]];
      j
  }

  /** The first occurrence is the unique index with no earlier occurrence. */
  lemma FirstIndexUnique<T>(s: seq<T>, x: T, j: nat)
    requires j < |s| && s[j] == x && x !in s[..j]
    ensures FirstIndex(s, x) == j
  {
    var i := FirstIndex(s, x);
    forall m | 0 <= m < j ensures s[m] != x {
      assert s[..j][m] == s[m];
    }
    forall m | 0 <= m < i ensures s[m] != x {
      assert s[..i][m] == s[m];
    }
  }

  /** The last occurrence is the unique index with no later occurrence. */
  lemma LastIndexUnique<T>(s: seq<T>, x: T, j: nat)
    requires j < |s| && s[j] == x && x !in s[j + 1..]
    ensures LastIndex(s, x) == j
  {
    var i := LastIndex(s, x);
    forall m | j < m < |s| ensures s[m] != x {
      assert s[j + 1..][m - j - 1] == s[m];
    }
    forall m | i < m < |s| ensures s[m] != x {
      assert s[i + 1..][m - i - 1] == s[m];
    }
  }

  /** Appending an element does not move an earlier first occurrence. */
  lemma FirstIndexSnoc<T>(s: seq<T>, y: T, x: T)
    requires x in s + [y]
    ensures x in s ==> FirstIndex(s + [y], x) == FirstIndex(s, x)
    ensures x !in s ==> FirstIndex(s + [y], x) == |s|
  {
    var t := s + [y];
    if x in s {
      var i := FirstIndex(s, x);
      assert t[..i] == s[..i];
      FirstIndexUnique(t, x, i);
    } else {
      assert t[..|s|] == s;
      FirstIndexUnique(t, x, |s|);
    }
  }

  /** Appending an element is the new last occurrence of that element and moves no other. */
  lemma LastIndexSnoc<T>(s: seq<T>, y: T, x: T)
    requires x in s + [y]
    ensures x == y ==> LastIndex(s + [y], x) == |s|
    ensures x != y ==> x in s && LastIndex(s + [y], x) == LastIndex(s, x)
  {
    var t := s + [y];
    if x == y {
      LastIndexUnique(t, x, |s|);
    } else {
      assert t[|s|] != x;
      assert x in s;
      var i := LastIndex(s, x);
      assert t[i + 1..] == s[i + 1..] + [y];
      LastIndexUnique(t, x, i);
    }
  }

  /**
   * AppendNew keeps `s` as a prefix, adds exactly the elements of `xs`, and keeps the
   * result free of duplicates when `s` is.
   */
  lemma {:induction false} AppendNewFacts<T>(s: seq<T>, xs: seq<T>)
    ensures |AppendNew(s, xs)| >= |s| && AppendNew(s, xs)[..|s|] == s
    ensures forall x :: x in AppendNew(s, xs) ==> x in s || x in xs
    ensures forall x :: x in s ==> x in AppendNew(s, xs)
    ensures forall x :: x in xs ==> x in AppendNew(s, xs)
    ensures Distinct(s) ==> Distinct(AppendNew(s, xs))
    decreases |xs|
  {
    if |xs| > 0 {
      var xs' := xs[..|xs| - 1];
      AppendNewFacts(s, xs');
      assert xs == xs' + [xs[|xs| - 1]];
      var p := AppendNew(s, xs');
      if xs[|xs| - 1] !in p {
        assert (p + [xs[|xs| - 1]])[..|s|] == p[..|s|];
      }
    }
  }

  /** Appending the new elements of `a` and then those of `b` is appending those of `a + b`. */
  lemma {:induction false} AppendNewConcat<T>(s: seq<T>, a: seq<T>, b: seq<T>)
    ensures AppendNew(AppendNew(s, a), b) == AppendNew(s, a + b)
    decreases |b|
  {
    if |b| == 0 {
      assert a + b == a;
    } else {
      var b' := b[..|b| - 1];
      AppendNewConcat(s, a, b');
      assert (a + b)[..|a + b| - 1] == a + b';
      assert (a + b)[|a + b| - 1] == b[|b| - 1];
    }
  }

  /** Dedup has no duplicates and exactly the elements of its input. */
  lemma DedupFacts<T>(xs: seq<T>)
    ensures Distinct(Dedup(xs))
    ensures forall x :: x in Dedup(xs) ==> x in xs
    ensures forall x :: x in xs ==> x in Dedup(xs)
  {
    AppendNewFacts([], xs);
  }

  /** Dedup lists the elements in the order of their first occurrence in the input. */
  lemma {:induction false} DedupFirstSeenOrder<T>(xs: seq<T>)
    ensures forall i, j :: 0 <= i < j < |Dedup(xs)| ==>
              Dedup(xs)[i] in xs && Dedup(xs)[j] in xs &&
              FirstIndex(xs, Dedup(xs)[i]) < FirstIndex(xs, Dedup(xs)[j])
    decreases |xs|
  {
    DedupFacts(xs);
    if |xs| > 0 {
      var xs' := xs[..|xs| - 1];
      var y := xs[|xs| - 1];
      assert xs == xs' + [y];
      DedupFirstSeenOrder(xs');
      DedupFacts(xs');
      var p := Dedup(xs');
      var d := Dedup(xs);
      forall i, j | 0 <= i < j < |d|
        ensures d[i] in xs && d[j] in xs && FirstIndex(xs, d[i]) < FirstIndex(xs, d[j])
      {
        assert d[i] in d && d[j] in d;
        assert d[i] in xs && d[j] in xs;
        FirstIndexSnoc(xs', y, d[i]);
        FirstIndexSnoc(xs', y, d[j]);
        if d != p {
          assert d == p + [y] && y !in xs';
          if j == |p| {
            assert d[i] == p[i] && d[j] == y;
          } else {
            assert d[i] == p[i] && d[j] == p[j];
          }
        }
      }
    }
  }

  /** The keys after a fill are the old keys followed by the new keys in first-seen order. */
  lemma {:induction false} FillKeys<V>(t: Table<V>, kvs: seq<(Key, V)>, overwrite: bool)
    requires WellFormed(t)
    ensures Fill(t, kvs, overwrite).keys == AppendNew(t.keys, KeysOf(kvs))
    decreases |kvs|
  {
    if |kvs| > 0 {
      var prefix := kvs[..|kvs| - 1];
      FillKeys(t, prefix, overwrite);
      assert KeysOf(kvs)[..|kvs| - 1] == KeysOf(prefix);
    }
  }

  /** Membership after a fill: the old keys and the keys of `kvs`. */
  lemma FillHas<V>(t: Table<V>, kvs: seq<(Key, V)>, overwrite: bool, k: Key)
    requires WellFormed(t)
    ensures k in Fill(t, kvs, overwrite).vals <==> k in t.vals || k in KeysOf(kvs)
  {
    FillKeys(t, kvs, overwrite);
    AppendNewFacts(t.keys, KeysOf(kvs));
  }

  /**
   * With overwriting (`set` on every pair) the value under `k` is that of the last pair
   * for `k`, or the old value when `kvs` has none.
   */
  lemma {:induction false} FillOverwriteValue<V>(t: Table<V>, kvs: seq<(Key, V)>, k: Key)
    requires WellFormed(t)
    requires k in t.vals || k in KeysOf(kvs)
    ensures k in Fill(t, kvs, true).vals
    ensures Fill(t, kvs, true).vals[k] ==
              if k in KeysOf(kvs) then kvs[LastIndex(KeysOf(kvs), k)].1 else t.vals[k]
    decreases |kvs|
  {
    FillHas(t, kvs, true, k);
    if |kvs| > 0 {
      var n := |kvs| - 1;
      var prefix := kvs[..n];
      var kp := KeysOf(prefix);
      KeysOfSnoc(kvs);
      OverwriteLast(t, kvs);
      if kvs[n].0 == k {
        LastIndexSnoc(kp, kvs[n].0, k);
      } else {
        FillOverwriteValue(t, prefix, k);
        if k in kp {
          LastIndexSnoc(kp, kvs[n].0, k);
          var j := LastIndex(kp, k);
          assert prefix[j] == kvs[j];
        }
      }
    }
  }

  /** The keys of a non-empty sequence are those of its front and the last key. */
  lemma KeysOfSnoc<V>(kvs: seq<(Key, V)>)
    requires |kvs| > 0
    ensures KeysOf(kvs) == KeysOf(kvs[..|kvs| - 1]) + [kvs[|kvs| - 1].0]
  {
  }

  /** The last pair of an overwriting fill is stored over the fill of the others. */
  lemma OverwriteLast<V>(t: Table<V>, kvs: seq<(Key, V)>)
    requires WellFormed(t)
    requires |kvs| > 0
    ensures Fill(t, kvs, true).vals ==
              Fill(t, kvs[..|kvs| - 1], true).vals[kvs[|kvs| - 1].0 := kvs[|kvs| - 1].1]
  {
  }

  /**
   * First-writer-wins (`if (!map.has(k)) map.set(k, v)`): the old value when the map
   * had `k`, otherwise the value of the first pair for `k`.
   */
  lemma {:induction false} FillFirstValue<V>(t: Table<V>, kvs: seq<(Key, V)>, k: Key)
    requires WellFormed(t)
    requires k in t.vals || k in KeysOf(kvs)
    ensures k in Fill(t, kvs, false).vals
    ensures Fill(t, kvs, false).vals[k] ==
              if k in t.vals then t.vals[k] else kvs[FirstIndex(KeysOf(kvs), k)].1
    decreases |kvs|
  {
    FillHas(t, kvs, false, k);
    if |kvs| > 0 {
      var n := |kvs| - 1;
      var prefix := kvs[..n];
      var kp := KeysOf(prefix);
      KeysOfSnoc(kvs);
      KeepFirstLast(t, kvs, k);
      FillHas(t, prefix, false, k);
      if k in KeysOf(kvs) {
        FirstIndexSnoc(kp, kvs[n].0, k);
      }
      if k in t.vals || k in kp {
        FillFirstValue(t, prefix, k);
        if k in kp {
          assert prefix[FirstIndex(kp, k)] == kvs[FirstIndex(kp, k)];
        }
      }
    }
  }

  /** A first-writer-wins fill keeps a stored key, and stores the last pair's key when new. */
  lemma KeepFirstLast<V>(t: Table<V>, kvs: seq<(Key, V)>, k: Key)
    requires WellFormed(t)
    requires |kvs| > 0
    ensures var before := Fill(t, kvs[..|kvs| - 1], false).vals;
            var after := Fill(t, kvs, false).vals;
            (k in before ==> k in after && after[k] == before[k]) &&
            (k !in before && k == kvs[|kvs| - 1].0 ==> k in after && after[k] == kvs[|kvs| - 1].1)
  {
  }

  /** The key/value pairs in insertion order: `Array.from(map.entries())`. */
  function EntriesOf<V>(t: Table<V>): (r: seq<(Key, V)>)
    requires WellFormed(t)
    ensures |r| == |t.keys|
    ensures forall i :: 0 <= i < |r| ==> r[i].0 == t.keys[i] && t.keys[i] in t.vals && r[i].1 == t.vals[t.keys[i]]
  {
    seq(|t.keys|, i requires 0 <= i < |t.keys| => (t.keys[i], t.vals[t.keys[i]]))
  }

  /** The values in insertion order: `Array.from(map.values())`. */
  function ValuesOf<V>(t: Table<V>): (r: seq<V>)
    requires WellFormed(t)
    ensures |r| == |t.keys|
    ensures forall i :: 0 <= i < |r| ==> t.keys[i] in t.vals && r[i] == t.vals[t.keys[i]]
  {
    seq(|t.keys|, i requires 0 <= i < |t.keys| => t.vals[t.keys[i]])
  }

  /** A JavaScript `Map` object, updated in place by `Set`. */
  class InsertionMap<V> {
    var keys: seq<Key>
    var vals: map<Key, V>

    /** The map's current contents. */
    function Model(): Table<V>
      reads this
    {
      Table(keys, vals)
    }

    ghost predicate Valid()
      reads this
    {
      WellFormed(Model())
    }

    /** `new Map()`. */
    constructor ()
      ensures Valid() && Model() == Empty()
    {
      keys, vals := [], map[];
    }

    /** `map.has(k)`. */
    predicate Has(k: Key)
      reads this
    {
      k in vals
    }

    /** `map.set(k, v)`. */
    method Set(k: Key, v: V)
      requires Valid()
      modifies this
      ensures Valid() && Model() == Put(old(Model()), k, v)
    {
      if k !in vals {
        keys := keys + [k];
      }
      vals := vals[k := v];
    }

    /**
     * `pairs.forEach(([k, v]) => map.set(k, v))` when `overwrite` holds, and
     * `pairs.forEach(([k, v]) => { if (!map.has(k)) map.set(k, v) })` otherwise.
     */
    method SetEach(kvs: seq<(Key, V)>, overwrite: bool)
      requires Valid()
      modifies this
      ensures Valid() && Model() == Fill(old(Model()), kvs, overwrite)
    {
      ghost var t := Model();
      var i := 0;
      while i < |kvs|
        invariant i <= |kvs| && Valid()
        invariant Model() == Fill(t, kvs[..i], overwrite)
      {
        ghost var before := Model();
        if overwrite || !Has(kvs[i].0) {
          Set(kvs[i].0, kvs[i].1);
        }
        assert Model() == Apply(before, kvs[i], overwrite);
        FillStep(t, kvs, i, overwrite);
        i := i + 1;
      }
      assert kvs[..i] == kvs;
    }
  }
}

=== FILE: receive.dfy ===
/** The receive form: the address to share and the token name shown with it. */
module Receive {
  import opened Wrappers
  import opened CoinTypes
  import Send

  /** `wallet?.getAddress() || ''`, with the wallet given by its address. */
  function WalletAddress(wallet: Option<string>): (r: string)
    ensures wallet.Some? ==> r == wallet.value
    ensures wallet.None? ==> r == ""
  {
    if wallet.Some? then wallet.value else ""
  }

  /** `tokenName`: `Cedra` without a coin type, else the name parsed from it. */
  function TokenName(coinType: Option<string>): (r: string)
    ensures coinType.None? || coinType.value == "" ==> r == "Cedra"
  {
    if coinType.None? || coinType.value == "" then "Cedra" else NameFromType(coinType.value)
  }

  /**
   * Shown with the primary balance, a token without a name of its own gets the same name in
   * the receive form as in the send form.
   */
  lemma SameNameAsSendForm(primary: Send.TokenInfo)
    requires primary.name == ""
    requires primary.coinType != "" || primary.asset_type == ""
    ensures TokenName(Some(primary.coinType)) == Send.TokenName(Send.ActiveToken(None, Some(primary)))
  {
  }
}

=== FILE: sdk.dfy ===
/**
 * The wallet SDK as the application sees it: each awaited call either returns a value or
 * throws, and the calls the application makes are recorded in order.
 */
module Sdk {
  import opened Wrappers

  /** The outcome of an awaited call: its value, or the message of what it threw (`""` for none). */
  datatype Outcome<T> = Ok(value: T) | Threw(message: string)

  /** A call made to the SDK, or to a callback the parent component passed in. */
  datatype SdkCall =
    | UpdateNetwork(network: string, rpcUrl: Option<string>)
    | RefreshData
    | GetBalance(coinType: string)
    | SendTransaction(to: string, amountText: string, decimals: int, coinType: string)
    | CloseForm
}

=== FILE: send.dfy ===
/**
 * The send form: which token it acts on and how it is labelled, the two-step
 * input/confirm machine, and the send itself around the SDK's outcomes.
 */
module Send {
  import opened Wrappers
  import opened Text
  import opened Sdk
  import opened CoinTypes
  import Indexer
  import Dashboard

  /**
   * The token object the form reads: a dashboard token or the SDK's primary balance, with
   * `""` for a field that is missing or empty.
   */
  datatype TokenInfo = TokenInfo(
    name: string, coinType: string, asset_type: string, symbol: string,
    metadataSymbol: string, formatted: string)

  /** A dashboard token handed to the form as `selectedToken`. */
  function FromDashboard(t: Dashboard.Token): (info: TokenInfo)
    ensures info.name == t.name && info.asset_type == t.asset_type
    ensures info.symbol == t.symbol && info.formatted == t.formatted
    ensures info.coinType == "" && info.metadataSymbol == ""
  {
    TokenInfo(t.name, "", t.asset_type, t.symbol, "", t.formatted)
  }

  /** `selectedToken || primaryBalance`. */
  function ActiveToken(selected: Option<TokenInfo>, primary: Option<TokenInfo>): (r: Option<TokenInfo>)
    ensures selected.Some? ==> r == selected
    ensures selected.None? ==> r == primary
  {
    if selected.Some? then selected else primary
  }

  /** `activeToken?.coinType || activeToken?.asset_type`: the type the name is parsed from. */
  function NameSourceType(active: Option<TokenInfo>): string {
    if active.None? then ""
    else if active.value.coinType != "" then active.value.coinType
    else active.value.asset_type
  }

  /** `tokenName`: the token's own name, else the name parsed from its type. */
  function TokenName(active: Option<TokenInfo>): (r: string)
    ensures active.Some? && active.value.name != "" ==> r == active.value.name
    ensures active.None? ==> r == "Cedra"
  {
    if active.Some? && active.value.name != "" then active.value.name
    else NameFromType(NameSourceType(active))
  }

  /** `tokenSymbol`: `symbol || metadata?.symbol || 'CED'`. */
  function TokenSymbol(active: Option<TokenInfo>): (r: string)
    ensures r != ""
    ensures active.Some? && active.value.symbol != "" ==> r == active.value.symbol
    ensures active.Some? && active.value.symbol == "" && active.value.metadataSymbol != "" ==>
              r == active.value.metadataSymbol
    ensures (active.None? || (active.value.symbol == "" && active.value.metadataSymbol == "")) ==> r == "CED"
  {
    if active.Some? && active.value.symbol != "" then active.value.symbol
    else if active.Some? && active.value.metadataSymbol != "" then active.value.metadataSymbol
    else "CED"
  }

  /** `activeBalanceFormatted`: `formatted || '0.00'`. */
  function BalanceText(active: Option<TokenInfo>): (r: string)
    ensures r != ""
    ensures active.Some? && active.value.formatted != "" ==> r == active.value.formatted
    ensures !(active.Some? && active.value.formatted != "") ==> r == "0.00"
  {
    if active.Some? && active.value.formatted != "" then active.value.formatted else "0.00"
  }

  /** `activeToken?.asset_type || activeToken?.coinType`: the asset the SDK is asked about. */
  function TargetCoinType(active: Option<TokenInfo>): string {
    if active.None? then ""
    else if active.value.asset_type != "" then active.value.asset_type
    else active.value.coinType
  }

  /**
   * The name is parsed from `coinType` first while the asset sent prefers `asset_type`:
   * when a token carries both, and they differ, the two lookups disagree.
   */
  lemma TypeLookupsDisagree(active: Option<TokenInfo>)
    ensures active.Some? && active.value.coinType != "" && active.value.asset_type != "" ==>
              NameSourceType(active) == active.value.coinType && TargetCoinType(active) == active.value.asset_type
    ensures active.Some? && (active.value.coinType == "" || active.value.asset_type == "") ==>
              NameSourceType(active) == TargetCoinType(active)
  {
  }

  /**
   * A token picked from the dashboard list shows its enriched name, which is never empty,
   * and is sent under its own asset type.
   */
  lemma SelectedDashboardToken(b: Indexer.Balance, metadata: seq<Indexer.AssetInfo>, primary: Option<TokenInfo>)
    requires Dashboard.Enrich(b, metadata).Some?
    ensures var active := ActiveToken(Some(FromDashboard(Dashboard.Enrich(b, metadata).value)), primary);
            && TokenName(active) == Dashboard.Enrich(b, metadata).value.name
            && TokenName(active) != ""
            && (b.asset_type != "" ==> TargetCoinType(active) == b.asset_type)
  {
    var meta := Dashboard.FindMeta(metadata, b.asset_type);
    Dashboard.NameNeverEmpty(meta, b.asset_type);
  }

  // ---------------------------------------------------------------- the send itself

  /** `err.message || 'Transaction failed'`. */
  function ErrorText(message: string): (r: string)
    ensures r != ""
    ensures message != "" ==> r == message
    ensures message == "" ==> r == "Transaction failed"
  {
    if message == "" then "Transaction failed" else message
  }

  /** The calls one send makes, in order, stopping at the first that throws. */
  function SendLog(to: string, amountText: string, target: string,
                   balance: Outcome<int>, send: Outcome<()>, refresh: Outcome<()>): seq<SdkCall>
  {
    [GetBalance(target)] +
    match balance {
      case Threw(_) => []
      case Ok(decimals) =>
        [SendTransaction(to, amountText, decimals, target)] +
        match send {
          case Threw(_) => []
          case Ok(_) => [RefreshData] + (if refresh.Ok? then [CloseForm] else [])
        }
    }
  }

  /** The error a send leaves: `""` after success, otherwise the text of the first failure. */
  function SendError(balance: Outcome<int>, send: Outcome<()>, refresh: Outcome<()>): (r: string)
    ensures r == "" <==> balance.Ok? && send.Ok? && refresh.Ok?
  {
    if balance.Threw? then ErrorText(balance.message)
    else if send.Threw? then ErrorText(send.message)
    else if refresh.Threw? then ErrorText(refresh.message)
    else ""
  }

  /**
   * The form is closed exactly when the send succeeded, i.e. when no error is left; it is
   * then the last call, right after `refreshData`, and the transfer went to the recipient
   * with the asset the balance was looked up for. A failed send never closes the form.
   */
  lemma CloseOnlyOnSuccess(to: string, amountText: string, target: string,
                           balance: Outcome<int>, send: Outcome<()>, refresh: Outcome<()>)
    ensures var log := SendLog(to, amountText, target, balance, send, refresh);
            && (CloseForm in log <==> SendError(balance, send, refresh) == "")
            && log[0] == GetBalance(target)
            && (CloseForm in log ==>
                  log == [GetBalance(target), SendTransaction(to, amountText, balance.value, target), RefreshData, CloseForm])
  {
  }

  /** The send form's step. */
  datatype Step = Input | Confirm

  /** The send form's state, with the calls it has made. */
  class SendForm {
    var recipient: string
    var amount: string
    var step: Step
    var isSending: bool
    var error: string
    var calls: seq<SdkCall>

    /** The initial state: empty fields, the input step, not sending, no error. */
    constructor ()
      ensures recipient == "" && amount == "" && step == Input
      ensures !isSending && error == "" && calls == []
    {
      recipient, amount, step := "", "", Input;
      isSending, error, calls := false, "", [];
    }

    /** Both fields are filled in: the Next button is enabled. */
    predicate CanProceed()
      reads this
    {
      recipient != "" && amount != ""
    }

    method SetRecipient(value: string)
      modifies this
      ensures recipient == value
      ensures amount == old(amount) && step == old(step) && isSending == old(isSending)
      ensures error == old(error) && calls == old(calls)
    {
      recipient := value;
    }

    method SetAmount(value: string)
      modifies this
      ensures amount == value
      ensures recipient == old(recipient) && step == old(step) && isSending == old(isSending)
      ensures error == old(error) && calls == old(calls)
    {
      amount := value;
    }

    /** `handleNext`: to the confirm step only when both fields are filled in. */
    method HandleNext()
      modifies this
      ensures old(CanProceed()) ==> step == Confirm
      ensures !old(CanProceed()) ==> step == old(step)
      ensures recipient == old(recipient) && amount == old(amount) && isSending == old(isSending)
      ensures error == old(error) && calls == old(calls)
    {
      if recipient == "" || amount == "" {
        return;
      }
      step := Confirm;
    }

    /** The Back button: return to the input step. */
    method Back()
      modifies this
      ensures step == Input
      ensures recipient == old(recipient) && amount == old(amount) && isSending == old(isSending)
      ensures error == old(error) && calls == old(calls)
    {
      step := Input;
    }

    /**
     * `handleSend`: with no wallet nothing changes. Otherwise the error is cleared, the
     * balance is looked up, the transfer sent, the data refreshed and the form closed, each
     * only if the previous call returned; the first failure leaves its message as the
     * error, and `isSending` is false at the end.
     */
    method HandleSend(walletPresent: bool, active: Option<TokenInfo>,
                      balance: Outcome<int>, send: Outcome<()>, refresh: Outcome<()>)
      modifies this
      ensures !walletPresent ==>
                && isSending == old(isSending) && error == old(error) && calls == old(calls)
      ensures walletPresent ==>
                && !isSending
                && error == SendError(balance, send, refresh)
                && calls == old(calls) + SendLog(recipient, amount, TargetCoinType(active), balance, send, refresh)
      ensures recipient == old(recipient) && amount == old(amount) && step == old(step)
    {
      if !walletPresent {
        return;
      }
      isSending := true;
      error := "";
      var targetCoinType := TargetCoinType(active);
      var log := [GetBalance(targetCoinType)];
      match balance {
        case Threw(message) =>
          error := ErrorText(message);
        case Ok(decimals) =>
          log := log + [SendTransaction(recipient, amount, decimals, targetCoinType)];
          match send {
            case Threw(message) =>
              error := ErrorText(message);
            case Ok(_) =>
              log := log + [RefreshData];
              match refresh {
                case Threw(message) =>
                  error := ErrorText(message);
                case Ok(_) =>
                  log := log + [CloseForm];
              }
          }
      }
      calls := calls + log;
      isSending := false;
    }
  }
}

=== FILE: text.dfy ===
/**
 * The JavaScript string operations the application relies on, over Dafny strings:
 * `includes`, `indexOf`, `split` with a non-empty separator, `split(..).pop()`,
 * `slice`, ASCII `toLowerCase`/`toUpperCase`, and decimal digit strings.
 */
module Text {

  /** `sub` occurs in `s` starting at position `i`. */
  predicate At(s: string, sub: string, i: nat) {
    i + |sub| <= |s| && s[i..i + |sub|] == sub
  }

  /** `s.includes(sub)`. */
  predicate Contains(s: string, sub: string) {
    exists i: nat :: i <= |s| && At(s, sub, i)
  }

  /** The first occurrence of `sub` at or after `k`, or -1: the cut position `split` uses. */
  function IndexFrom(s: string, sub: string, k: nat): (r: int)
    ensures r == -1 || (k <= r && At(s, sub, r))
    ensures forall j: nat :: k <= j && (r == -1 || j < r) ==> !At(s, sub, j)
    decreases |s| - k
  {
    if k + |sub| > |s| then -1
    else if At(s, sub, k) then k
    else IndexFrom(s, sub, k + 1)
  }

  /** The first occurrence of `sub` in `s`, or -1: the cut position `split` uses. */
  function IndexOf(s: string, sub: string): (r: int)
    ensures r == -1 <==> !Contains(s, sub)
    ensures r != -1 ==> 0 <= r && At(s, sub, r) && forall j: nat :: j < r ==> !At(s, sub, j)
  {
    IndexFrom(s, sub, 0)
  }

  /** `s.split(sep)` for a non-empty separator: scan left to right, cut at each occurrence. */
  function Split(s: string, sep: string): (parts: seq<string>)
    requires |sep| > 0
    ensures |parts| >= 1
    decreases |s|
  {
    var i := IndexOf(s, sep);
    if i == -1 then [s]
    else [s[..i]] + Split(s[i + |sep|..], sep)
  }

  /** `parts.join(sep)`. */
  function Join(parts: seq<string>, sep: string): string
    requires |parts| >= 1
  {
    if |parts| == 1 then parts[0] else parts[0] + sep + Join(parts[1..], sep)
  }

  /** No part produced by `Split` contains the separator, and joining the parts gives back the string. */
  lemma {:induction false} SplitJoin(s: string, sep: string)
    requires |sep| > 0
    ensures Join(Split(s, sep), sep) == s
    ensures forall p :: p in Split(s, sep) ==> !Contains(p, sep)
    decreases |s|
  {
    var i := IndexOf(s, sep);
    if i != -1 {
      SplitStep(s, sep);
      var head, rest := s[..i], s[i + |sep|..];
      var parts := Split(rest, sep);
      SplitJoin(rest, sep);
      assert s == head + sep + rest by {
        assert s == s[..i] + s[i..i + |sep|] + s[i + |sep|..];
      }
      PrefixBeforeFirstIsFree(s, sep, i);
      assert Join([head] + parts, sep) == head + sep + Join(parts, sep) by {
        assert ([head] + parts)[1..] == parts;
      }
      forall p | p in [head] + parts ensures !Contains(p, sep) {
        if p != head {
          assert p in parts;
        }
      }
    }
  }

  /** One step of the scan: the text before the first `sep`, then the split of the text after it. */
  lemma SplitStep(s: string, sep: string)
    requires |sep| > 0 && IndexOf(s, sep) != -1
    ensures var i := IndexOf(s, sep);
            && 0 <= i && i + |sep| <= |s| && At(s, sep, i)
            && Split(s, sep) == [s[..i]] + Split(s[i + |sep|..], sep)
  {
  }

  /** The text before the first occurrence of `sep` does not contain `sep`. */
  lemma PrefixBeforeFirstIsFree(s: string, sep: string, i: nat)
    requires |sep| > 0 && i <= |s|
    requires forall j: nat :: j < i ==> !At(s, sep, j)
    ensures !Contains(s[..i], sep)
  {
    forall j: nat | j <= i && At(s[..i], sep, j)
      ensures false
    {
      assert s[..i][j..j + |sep|] == s[j..j + |sep|];
      assert At(s, sep, j);
    }
  }

  /** The first part of a split is the text before the first occurrence, or the whole string. */
  lemma FirstPart(s: string, sep: string)
    requires |sep| > 0
    ensures var i := IndexOf(s, sep);
            Split(s, sep)[0] == if i == -1 then s else s[..i]
  {
  }

  /** A string none of whose characters starts the separator splits into itself alone. */
  lemma SplitFree(a: string, sep: string)
    requires |sep| > 0 && forall j :: 0 <= j < |a| ==> a[j] != sep[0]
    ensures Split(a, sep) == [a]
  {
    forall j: nat | j <= |a| ensures !At(a, sep, j) {
      if j + |sep| <= |a| {
        assert a[j..j + |sep|][0] == a[j];
      }
    }
    assert !Contains(a, sep);
  }

  /** Such a string followed by the separator is cut exactly there. */
  lemma SplitAfterFree(a: string, sep: string, rest: string)
    requires |sep| > 0 && forall j :: 0 <= j < |a| ==> a[j] != sep[0]
    ensures Split(a + sep + rest, sep) == [a] + Split(rest, sep)
  {
    var s := a + sep + rest;
    assert s[|a|..|a| + |sep|] == sep;
    forall j: nat | j < |a| ensures !At(s, sep, j) {
      assert s[j] == a[j];
      if j + |sep| <= |s| {
        assert s[j..j + |sep|][0] == s[j];
      }
    }
    assert At(s, sep, |a|);
    var i := IndexOf(s, sep);
    assert i == |a|;
    assert s[..i] == a && s[i + |sep|..] == rest;
  }

  /** `s.split(sep).pop()`: the text after the last separator found by the left-to-right scan. */
  function LastSegment(s: string, sep: string): string
    requires |sep| > 0
  {
    var parts := Split(s, sep);
    parts[|parts| - 1]
  }

  /** The last segment is a suffix of `s` free of `sep`, and the whole string when `sep` does not occur. */
  lemma {:induction false} LastSegmentIsSuffix(s: string, sep: string)
    requires |sep| > 0
    ensures var r := LastSegment(s, sep);
            && |r| <= |s| && s[|s| - |r|..] == r
            && !Contains(r, sep)
            && (!Contains(s, sep) ==> r == s)
    decreases |s|
  {
    var i := IndexOf(s, sep);
    if i != -1 {
      LastSegmentStep(s, sep, i);
      var rest := s[i + |sep|..];
      LastSegmentIsSuffix(rest, sep);
      SuffixOfRest(s, i + |sep|, |LastSegment(rest, sep)|);
    } else {
      LastSegmentWhole(s, sep);
    }
  }

  /** When `sep` occurs, the last segment is immediately preceded by `sep`. */
  lemma {:induction false} LastSegmentIsPreceded(s: string, sep: string)
    requires |sep| > 0 && Contains(s, sep)
    ensures |LastSegment(s, sep)| + |sep| <= |s| && At(s, sep, |s| - |LastSegment(s, sep)| - |sep|)
    decreases |s|
  {
    var i := FirstSeparator(s, sep);
    var rest := s[i + |sep|..];
    PrecededStep(s, sep, i, rest, LastSegment(rest, sep));
  }

  /** Where the first `sep` starts, with the last segment unchanged by dropping the text up to it. */
  lemma FirstSeparator(s: string, sep: string) returns (i: nat)
    requires |sep| > 0 && Contains(s, sep)
    ensures i + |sep| <= |s| && At(s, sep, i)
    ensures LastSegment(s, sep) == LastSegment(s[i + |sep|..], sep)
  {
    i := IndexOf(s, sep);
    LastSegmentStep(s, sep, i);
  }

  lemma {:induction false} PrecededStep(s: string, sep: string, i: nat, rest: string, r: string)
    requires |sep| > 0 && i + |sep| <= |s| && At(s, sep, i) && rest == s[i + |sep|..]
    requires r == LastSegment(rest, sep)
    ensures |r| + |sep| <= |s| && At(s, sep, |s| - |r| - |sep|)
    decreases |s|, 0
  {
    if IndexOf(rest, sep) == -1 {
      LastSegmentWhole(rest, sep);
      assert |s| - |r| - |sep| == i;
    } else {
      LastSegmentIsPreceded(rest, sep);
      var j := |rest| - |r| - |sep|;
      AtShift(s, i + |sep|, sep, j);
      assert |s| - |r| - |sep| == i + |sep| + j;
    }
  }

  /** One step of the scan: the last segment of `s` is the last segment of the text after the first `sep`. */
  lemma LastSegmentStep(s: string, sep: string, i: int)
    requires |sep| > 0 && i == IndexOf(s, sep) && i != -1
    ensures 0 <= i && i + |sep| <= |s| && At(s, sep, i)
    ensures LastSegment(s, sep) == LastSegment(s[i + |sep|..], sep)
  {
    SplitStep(s, sep);
    LastOfCons(s[..i], Split(s[i + |sep|..], sep));
  }

  lemma LastOfCons<T>(x: T, xs: seq<T>)
    requires |xs| >= 1
    ensures ([x] + xs)[|xs|] == xs[|xs| - 1]
  {
  }

  lemma LastSegmentWhole(s: string, sep: string)
    requires |sep| > 0 && IndexOf(s, sep) == -1
    ensures LastSegment(s, sep) == s
  {
  }

  lemma SuffixOfRest(s: string, k: nat, n: nat)
    requires k <= |s| && n <= |s| - k
    ensures s[k..][|s| - k - n..] == s[|s| - n..]
  {
  }

  lemma AtShift(s: string, k: nat, sub: string, j: nat)
    requires k <= |s| && At(s[k..], sub, j)
    ensures At(s, sub, k + j)
  {
    assert s[k..][j..j + |sub|] == s[k + j..k + j + |sub|];
  }

  /** The three pieces of a concatenation are its slices at the pieces' lengths. */
  lemma ConcatParts<T>(a: seq<T>, b: seq<T>, c: seq<T>)
    ensures |a + b + c| == |a| + |b| + |c|
    ensures (a + b + c)[..|a|] == a && (a + b + c)[|a|..|a| + |b|] == b && (a + b + c)[|a| + |b|..] == c
  {
    var s := a + b + c;
    assert s[..|a|] == a;
    assert s[|a|..|a| + |b|] == b;
    assert s[|a| + |b|..] == c;
  }

  /** JavaScript's `slice(0, n)` for `n >= 0`: at most the first `n` characters. */
  function Take(s: string, n: nat): (r: string)
    ensures |r| == if |s| < n then |s| else n
    ensures r == s[..|r|]
  {
    if |s| < n then s else s[..n]
  }

  /** JavaScript's `slice(-n)` for `n > 0`: at most the last `n` characters. */
  function TakeLast(s: string, n: nat): (r: string)
    requires n > 0
    ensures |r| == if |s| < n then |s| else n
    ensures r == s[|s| - |r|..]
  {
    if |s| < n then s else s[|s| - n..]
  }

  /** ASCII `toLowerCase` of one character; other characters are unchanged. */
  function LowerChar(c: char): char {
    if 'A' <= c <= 'Z' then (c as int - 'A' as int + 'a' as int) as char else c
  }

  /** ASCII `toUpperCase` of one character; other characters are unchanged. */
  function UpperChar(c: char): char {
    if 'a' <= c <= 'z' then (c as int - 'a' as int + 'A' as int) as char else c
  }

  /** ASCII `toLowerCase`. */
  function ToLower(s: string): (r: string)
    ensures |r| == |s|
    ensures forall i :: 0 <= i < |s| ==> r[i] == LowerChar(s[i])
  {
    seq(|s|, i requires 0 <= i < |s| => LowerChar(s[i]))
  }

  /** Lowercasing leaves no upper-case ASCII letter and is idempotent. */
  lemma ToLowerIsLower(s: string)
    ensures forall i :: 0 <= i < |s| ==> !('A' <= ToLower(s)[i] <= 'Z')
    ensures ToLower(ToLower(s)) == ToLower(s)
  {
  }

  /** Two characters are equal ignoring ASCII case. */
  predicate EqualsIgnoreCase(a: string, b: string) {
    ToLower(a) == ToLower(b)
  }

  predicate IsDigit(c: char) {
    '0' <= c <= '9'
  }

  predicate IsDigits(s: string) {
    forall i :: 0 <= i < |s| ==> IsDigit(s[i])
  }

  function DigitValue(c: char): nat
    requires IsDigit(c)
  {
    c as int - '0' as int
  }

  function DigitChar(d: nat): (c: char)
    requires d < 10
    ensures IsDigit(c) && DigitValue(c) == d
  {
    (d + '0' as int) as char
  }

  /** The value of a string of decimal digits (0 for the empty string, as `Number("")`). */
  function DigitsValue(s: string): nat
    requires IsDigits(s)
  {
    if |s| == 0 then 0 else 10 * DigitsValue(s[..|s| - 1]) + DigitValue(s[|s| - 1])
  }

  function Pow10(n: nat): (r: nat)
    ensures r >= 1
  {
    if n == 0 then 1 else 10 * Pow10(n - 1)
  }

  /** The decimal rendering of a natural number, as JavaScript prints an integer-valued number. */
  function NatToString(n: nat): (r: string)
    ensures |r| >= 1 && IsDigits(r)
    ensures DigitsValue(r) == n
    ensures r[0] != '0' || n == 0
    decreases n
  {
    if n < 10 then [DigitChar(n)]
    else
      var p := NatToString(n / 10);
      var r := p + [DigitChar(n % 10)];
      assert r[..|r| - 1] == p;
      r
  }

  /** The digits of `a` followed by those of `b` denote `a`'s value shifted by `|b|` places plus `b`'s. */
  lemma {:induction false} DigitsConcat(a: string, b: string)
    requires IsDigits(a) && IsDigits(b)
    ensures IsDigits(a + b) && DigitsValue(a + b) == DigitsValue(a) * Pow10(|b|) + DigitsValue(b)
    decreases |b|
  {
    if |b| > 0 {
      var b' := b[..|b| - 1];
      var c := b[|b| - 1];
      assert (a + b)[..|a + b| - 1] == a + b';
      assert (a + b)[|a + b| - 1] == c;
      DigitsConcat(a, b');
      ShiftDigit(DigitsValue(a), Pow10(|b'|), DigitsValue(b'), DigitValue(c));
    } else {
      assert a + b == a;
    }
  }

  lemma ShiftDigit(x: nat, p: nat, y: nat, d: nat)
    ensures 10 * (x * p + y) + d == x * (10 * p) + (10 * y + d)
  {
  }

  /** A digit string with a non-zero leading digit denotes a positive number. */
  lemma {:induction false} LeadingDigitPositive(s: string)
    requires |s| >= 1 && IsDigits(s) && s[0] != '0'
    ensures DigitsValue(s) >= 1
    decreases |s|
  {
    if |s| > 1 {
      LeadingDigitPositive(s[..|s| - 1]);
    }
  }

  /** Printing the value of a canonical digit string (no leading zero) gives the string back. */
  lemma {:induction false} NatToStringCanonical(s: string)
    requires |s| >= 1 && IsDigits(s) && (s[0] != '0' || |s| == 1)
    ensures NatToString(DigitsValue(s)) == s
    decreases |s|
  {
    if |s| > 1 {
      var init := s[..|s| - 1];
      LeadingDigitPositive(init);
      NatToStringCanonical(init);
      var n := DigitsValue(s);
      assert n / 10 == DigitsValue(init) && n % 10 == DigitValue(s[|s| - 1]);
      assert s == init + [s[|s| - 1]];
    }
  }

  /** A digit string of length `k` denotes less than `10^k`. */
  lemma {:induction false} DigitsBelowPow10(s: string)
    requires IsDigits(s)
    ensures DigitsValue(s) < Pow10(|s|)
    decreases |s|
  {
    if |s| > 0 {
      var init := s[..|s| - 1];
      assert IsDigits(init) by {
        forall i | 0 <= i < |init| ensures IsDigit(init[i]) {
          assert init[i] == s[i];
        }
      }
      DigitsBelowPow10(init);
    }
  }

  /** A number below 10^k prints in at most k digits. */
  lemma {:induction false} NatToStringLength(n: nat, k: nat)
    requires n < Pow10(k)
    ensures k == 0 || |NatToString(n)| <= k
    decreases n
  {
    if k > 0 && n >= 10 {
      NatToStringLength(n / 10, k - 1);
    }
  }

  function Zeros(n: nat): (r: string)
    ensures |r| == n && forall i :: 0 <= i < n ==> r[i] == '0'
  {
    if n == 0 then "" else Zeros(n - 1) + "0"
  }

  /** `s` left-padded with zeros to width `w`. */
  function PadZeros(s: string, w: nat): (r: string)
    ensures |r| == if |s| < w then w else |s|
    ensures r[|r| - |s|..] == s
    ensures forall i :: 0 <= i < |r| - |s| ==> r[i] == '0'
  {
    if |s| < w then Zeros(w - |s|) + s else s
  }

  /** Leading zeros do not change the value of a digit string. */
  lemma {:induction false} PadZerosValue(s: string, w: nat)
    requires IsDigits(s)
    ensures IsDigits(PadZeros(s, w)) && DigitsValue(PadZeros(s, w)) == DigitsValue(s)
  {
    var r := PadZeros(s, w);
    LeadingZeros(r, |r| - |s|);
  }

  lemma {:induction false} LeadingZeros(r: string, z: nat)
    requires z <= |r| && IsDigits(r[z..])
    requires forall i :: 0 <= i < z ==> r[i] == '0'
    ensures IsDigits(r) && DigitsValue(r) == DigitsValue(r[z..])
    decreases |r|
  {
    if z < |r| {
      var q := r[..|r| - 1];
      assert q[z..] == r[z..][..|r| - 1 - z];
      LeadingZeros(q, z);
      assert r[z..][|r| - 1 - z] == r[|r| - 1];
    } else {
      assert r[z..] == [];
      ZerosValue(r);
    }
  }

  lemma {:induction false} ZerosValue(r: string)
    requires forall i :: 0 <= i < |r| ==> r[i] == '0'
    ensures IsDigits(r) && DigitsValue(r) == 0
  {
    if |r| > 0 {
      ZerosValue(r[..|r| - 1]);
    }
  }
}

=== FILE: wrappers.dfy ===
/** Small failure-compatible helper types shared by the other modules. */
module Wrappers {

  /** A value that may be absent (JavaScript's `undefined`/`null`). */
  datatype Option<+T> = None | Some(value: T)
}
